=== FILE: README.md ===
# skillset: the sync engine, modelled in Dafny

skillset keeps one source directory of agent *skills* in step with the skill
directories of several tools. A skill is a subdirectory that holds a
`SKILL.md` manifest. This project models the tool's core over an abstract
filesystem and proves properties of that model. The core covers:

- discovering skills;
- copying a skill over its destination;
- syncing every skill to every target through the overwrite arbiter, which
  is the `PerSkill → All` policy driven by the user's answers;
- installing a package (`owner/repo`) from a git cache;
- removing a skill;
- scaffolding a new skill from its templates;
- the small helpers of the configuration (`expand_home`, the defaults, the
  supported-tools table, the legacy migration) and `resolve_source`.

The filesystem is `map<Path, Node>`, where a `Path` is a sequence of name
components and a node is `Dir` or `File(bytes)` (module `FileSystem`).
Composite operations return the result together with the filesystem after
them. A failure in the middle therefore keeps the effects made before it,
as the source's `?` does.

Answers are a sequence of input lines consumed one per prompt. At end of
input the next line reads as empty, which counts as "skip". What the user
sees becomes a trace of `Copied` / `Prompted` / `Overwrote` / `Skipped`
events. Three things are parameters rather than globals: `HOME`, the
platform cache directory and the outcome of `git clone`.

Modules, one file each:

| module | content |
|---|---|
| `Types` | the errors |
| `Paths` | path components, `split`, `join` |
| `Text` | `trim`, case mapping |
| `Order` | string order and sorting |
| `FileSystem` | the map and the std::fs operations used |
| `Discovery` | `discover_skills` |
| `Copier` | `copy_skill`, `copy_dir_recursive` |
| `Arbiter` | the overwrite decision and the run contract |
| `Sync` | `sync_skills` |
| `Install` | `resolve_package`, `find_skills_dir`, `install_package` |
| `Remove` | `remove_skill` |
| `Scaffold` | `add_skill` and both templates |
| `Config` | the configuration's pure parts |
| `SourcePath` | `resolve_source` |

Each run of pairs satisfies `Arbiter.Accounted`:

- the trace only grows;
- exactly one answer line is read per prompt;
- under `All` no answer is read and the policy stays `All`;
- a successful run decides every (skill, target) pair exactly once, in order.

`Arbiter.Chain` composes two accounted runs. The loops of sync and install
are proved through it.

## Model

| member | source | states |
|---|---|---|
| Discovery.Discover | src/skills.rs:8-35 | A missing root lists nothing. A root that is a file cannot be read. Otherwise the result is strictly sorted and holds exactly the names of subdirectories that contain `SKILL.md`. |
| Discovery.DiscoverNoDuplicates | src/skills.rs:33-34 | No name is listed twice. |
| Discovery.DiscoverSkipsNonSkills | src/skills.rs:21-26 | Plain files and subdirectories without a manifest are never listed (the tests at src/skills.rs:54-64). |
| Discovery.DiscoverDependsOnlyOnSkills | src/skills.rs:17-31 | Two filesystems that agree on the root and on which names are skills list the same names. |
| Order.Sort | src/skills.rs:33 | Sorting a set of names gives a strictly increasing sequence with exactly those names. |
| Order.BelowTotal | src/skills.rs:33 | The order `sort` uses on strings is total. |
| Copier.CopySkill | src/skills.rs:78-92 | A missing source fails with the filesystem unchanged. A file at the destination cannot be cleared. In every case, paths outside the destination keep their contents, and the only paths added outside it are directories on the way to its parent. |
| Copier.CopyTree | src/skills.rs:95-111 | The source tree is recreated under the destination entry by entry. Nothing outside the destination changes. |
| Copier.CopyReplacesSubtree | src/skills.rs:83-89 | After a successful copy, the tree at `to` is exactly the tree that was at `from`. No old content survives. |
| Copier.CopySucceeds | src/skills.rs:78-92 | The copy succeeds when the source exists outside the destination, the destination is not a file and no file blocks the way. |
| Copier.CopyOntoAncestorFails | src/skills.rs:83-84 | Copying onto an ancestor of the source fails, because clearing the destination deletes the source. |
| Copier.CopyKeepsTree | src/skills.rs:78-111 | Copying keeps the filesystem a tree: every entry's parent is a directory. |
| Arbiter.Decide | src/skills.rs:146-185 | An absent destination is copied with no prompt. Under `All` an existing one is overwritten with no prompt. Under `PerSkill`, one answer is read: `y`/`yes` copies and keeps `PerSkill`, `a`/`all` copies and switches to `All`, anything else skips with the filesystem untouched. |
| Arbiter.Ask | src/skills.rs:154-179 | A prompt consumes one line and records the prompt, then the overwrite or the skip. |
| Arbiter.DecideEffect | src/skills.rs:146-185 | One decision is accounted: one line per prompt, no prompt under `All`, one decision on success. |
| Arbiter.Chain | src/skills.rs:141-187 | Two accounted runs in sequence account for the concatenation of their pairs. |
| Arbiter.RunPairs | src/skills.rs:141-187 | The run stops at the first failed copy. The trace only grows and one line is read per prompt. `All` never prompts and is never left. Success decides every pair once, in order. |
| Arbiter.ConsumeRest | src/skills.rs:160-164 | Reading one line and then `k` more is reading `k + 1` lines. |
| Sync.EnsureDirs | src/skills.rs:134-137 | All target base directories are created unless one is blocked by a file, in which case the error names a target. Only directories on the way to the targets are added. |
| Sync.SyncSkills | src/skills.rs:122-191 | A discovery error propagates. With no skills the result is `Ok`, with no directory made and no answer read. A blocked target aborts before any copy or prompt, and the filesystem is the one the directory loop left. Otherwise every base directory exists first, and the run is the flat loop over the pairs. |
| Sync.EnsureDirsStopsAtFirst | src/skills.rs:134-137 | A failing directory loop stops at the first target blocked by a file, in caller order. The error names that target, and the directory of every earlier target exists. |
| Sync.SyncStopsAtFirstBlocked | src/skills.rs:134-137 | When some skill is found and a target is blocked, the sync fails at the first blocked target with no answer read and no event. The earlier targets' base directories stay made. |
| Sync.SyncAccounted | src/skills.rs:141-190 | Sync reads one line per prompt. The policy never leaves `All`. Success decides every (skill, target) pair once, skill-major over the sorted skills. |
| Sync.SkillLoopIsPairs | src/skills.rs:141-187 | The nested loops equal the flat loop over all pairs, skills outer and targets inner. |
| Sync.PairsOrder | src/skills.rs:141-145 | The pair for skill `i` and target `j` is at position `i * n + j`, where `n` is the number of targets. |
| Sync.PairsLength | src/skills.rs:141-145 | There are as many pairs as skills times targets. |
| Sync.RunPairsAppend | src/skills.rs:141-187 | Running two lists of pairs back to back is running their concatenation. |
| Install.ParseSpec | src/install.rs:10-19 | A spec is accepted exactly when it has one `/`. Empty parts are allowed. Owner and repo contain no `/` and glue back into the spec. |
| Install.ParseSpecRoundTrip | src/install.rs:10-19 | Every slash-free owner and repo parse back from `owner/repo`. |
| Install.CacheKeyIsPlain | src/install.rs:29 | The cache entry name `owner-repo` is a single ordinary path component. |
| Install.CacheKeyCollides | src/install.rs:29 | `a-b/c` and `a/b-c` share a cache entry, so the key is not injective. |
| Install.ExampleUrl | src/install.rs:29-30 | `anthropics/skills` maps to `https://github.com/anthropics/skills.git` and to `anthropics-skills`. |
| Install.Fetch | src/install.rs:32-54 | A present entry is reused unchanged. A successful clone returns the entry. A failed clone names the spec. A clone that cannot start reports that. Nothing outside the entry changes. |
| Install.ResolvePackage | src/install.rs:8-55 | A malformed spec fails before any effect, and so does a repos directory that cannot be made. The entry is named by the spec alone. A present entry is returned with no clone. A missing one is cloned from the spec's URL: success returns the entry, and a failed or unstartable git is the error, with the repos directory left made. |
| Install.ReuseIgnoresGit | src/install.rs:32-34 | When the entry exists, git's behaviour does not matter. |
| Install.CloneInstallsTree | src/install.rs:38-51 | A fresh clone puts exactly the checked-out tree at the entry. |
| Install.FindSkillsDir | src/install.rs:59-80 | An existing `.cursor/skills` decides alone: it is returned if it lists a skill and is an error if it is empty. Otherwise `skills` is probed the same way. With neither, the result is an error. |
| Install.Probe | src/install.rs:63-74 | An existing candidate is accepted exactly when it lists at least one skill. |
| Install.SelectSkills | src/install.rs:99-110 | No filter keeps every skill. A filter in the package keeps just that skill. Any other filter fails and lists the available skills. |
| Install.Choose | src/install.rs:91-110 | The package directory is the one the probe found. The chosen skills are skills of the package in sorted order: all of them, or exactly the filter. A filter that is not in the package fails. A found directory with no filter, or a filter it lists, always succeeds. |
| Install.PrepareSucceeds | src/install.rs:88-110 | A resolved repository with a skills directory, and no filter or one the directory lists, is always prepared. The package holds all its discovered skills in sorted order, or exactly the filtered one. |
| Install.NoSkillsInPackageUnreachable | src/install.rs:94-96 | The `No skills found in package` error can never occur after a successful probe. |
| Install.StoreDecide | src/install.rs:180-200 | The user-store decision is the arbiter's `PerSkill` decision, except that `a`/`all` skips. |
| Install.StoreLoop | src/install.rs:176-201 | The user-store loop reads one line per prompt and decides each skill once, in order. |
| Install.Deliver | src/install.rs:117-202 | The target loop starts from a fresh `PerSkill`. Its errors end the install. With `HOME` unset, the install fails only after every target copy. Success decides every pair, then every skill for the store. |
| Install.InstallPackage | src/install.rs:83-206 | A malformed spec has no effect at all. Nothing is copied or asked before the package is prepared. Answers are read one per prompt. Success decides every pair skill-major and then the store's pairs. |
| Remove.Present | src/remove.rs:13-19 | The collected paths are exactly the candidates that exist. Any two of them keep the order of the targets they came from, and when every candidate exists all are kept. |
| Remove.DeleteAll | src/remove.rs:47-52 | Paths are deleted in order until the first failure. What is gone lay below a deleted path, nothing below a deleted path is left, and everything else is unchanged. |
| Remove.Erase | src/remove.rs:46-65 | The targets' copies go first, and a failure there is the outcome. Without user scope that is all. With `HOME` unset it fails. Otherwise the store's copy is deleted when it is a directory, skipped when missing, and a file there fails. On success nothing deleted is left. |
| Remove.Purge | src/remove.rs:21-66 | With nothing collected there is no prompt and no change. Without confirmation nothing is removed. With confirmation the collected paths go first, then the store's copy. With `HOME` unset the removal fails after the targets are cleaned. On success no collected path and no store copy is left. |
| Remove.RemoveSkill | src/remove.rs:7-70 | An empty or non-plain name fails with no change. If no target holds the skill, nothing happens, and a refused answer removes nothing. Once confirmed, the targets' copies are deleted in order and the first failure is the outcome. Then the store's copy is deleted if it is there, or the removal fails with `HOME` unset. On success no target and no involved store holds the skill. Only paths below a target's copy or the store's copy are ever deleted. |
| Remove.RemoveSkillAsWritten | src/remove.rs:7-70 | The source's version, in which only the empty name is rejected. |
| Remove.AsWrittenAgreesOnPlainNames | src/remove.rs:14-19 | For ordinary names, the source's version and the checked one agree, for the targets' copies and for the store's copy joined at src/remove.rs:57. |
| Remove.AbsoluteNameEscapes | src/remove.rs:14-52 | In the source's version, removing skill `/srv` from target `/t` deletes `/srv`, which is outside every target. |
| Remove.AbsoluteNameRejected | src/remove.rs:8-10 | The checked version refuses `/srv` and changes nothing. |
| Scaffold.AddSkill | src/add.rs:7-58 | An empty name, an invalid name, or an existing destination without `force` fails with no change. Success means a valid name with both files written with the templates' bytes. Outside the skill directory only parent directories are added. |
| Scaffold.AddSkillWritesExactlyTwoFiles | src/add.rs:34-48 | On a tree, the new skill directory holds exactly `SKILL.md` and `README.md`, even after `force` replaced an old one. |
| Scaffold.AddSkillSucceeds | src/add.rs:7-58 | On a tree, scaffolding succeeds when the name is valid and non-empty, the skill directory is new or is a directory replaced under `force`, and no file blocks the source directory. |
| Scaffold.AddedSkillIsDiscovered | src/add.rs:38-43 | After success, discovery in the source directory lists the name. |
| Scaffold.ValidNameIsPlain | src/add.rs:13-23 | A valid name is ASCII and one ordinary path component. |
| Scaffold.FrontMatterRoundTrip | src/add.rs:60-65 | The manifest opens with front matter, and its `name:` reads back as the name. |
| Scaffold.HeadingPlacement | src/add.rs:65-67 | The title line `# <HEADING>` directly follows the front matter. |
| Scaffold.Heading | src/add.rs:114 | The heading turns `-` and `_` into spaces and upper-cases the name character by character. |
| Scaffold.Phrase | src/add.rs:122 | The README phrase turns `-` and `_` into spaces and lower-cases the name. |
| Scaffold.HeadingIsPhraseUpper | src/add.rs:114-122 | For valid names, the heading is the README phrase in upper case. |
| Scaffold.ReadmeTitle | src/add.rs:118-123 | The README's first line is `# <name> Skill`. |
| Config.ExpandHome | src/config.rs:136-155 | Without the `~/` prefix, or without `HOME`, the text is unchanged. Otherwise the rest is pushed onto `HOME`: an absolute rest replaces it, and a slash is inserted only when needed. |
| Config.ExpandHomeIdempotent | src/config.rs:136-143 | Expanding twice is expanding once, for a home that does not start with `~`. |
| Config.ExpandHomeExamples | src/config.rs:188-199 | The source's test cases. |
| Config.UserLevel | src/config.rs:177 | A target is user-level exactly when its path starts with `~/`. |
| Config.WorkspaceLevel | src/config.rs:178 | A target is workspace-level exactly when its path does not start with `~/`. |
| Config.LevelsPartition | src/config.rs:177-178 | Every target is on exactly one of the two levels. |
| Config.SupportedToolsTable | src/config.rs:50-85 | The table has eight tools, including those the test at src/config.rs:161-172 names. Each label is listed once. |
| Config.SupportedToolsLevels | src/config.rs:174-186 | Seven tools are user-level. The only workspace-level one is `GitHub Copilot (project)` at `.github/skills`. |
| Config.Migrate | src/config.rs:118-122 | The file is rewritten exactly when the source is the legacy `.ai/skills`, which becomes `.skillset/skills`. Nothing else changes, and the result is never legacy. |
| Config.MigrateIdempotent | src/config.rs:118-122 | A migrated configuration loads again unchanged and is not rewritten. |
| Config.DefaultsAreCurrent | src/config.rs:22-24 | The defaults are source `.skillset/skills`, the supported tools as targets, SSH off, and skill dirs `.claude/skills` then `skills`. A fresh default needs no migration. |
| SourcePath.ResolveSource | src/path.rs:6-13 | With user scope and a known home, the result is `<home>/.ai/skills`. Otherwise it is the configured source pushed onto the working directory, with a separator only when the directory lacks one, as for `/`. It never fails. |
| SourcePath.UserScopeIgnoresWorkspace | src/path.rs:7-10 | Under user scope with a home, the working directory and the configured source do not matter. |
| SourcePath.UnsetHomeFallsBack | src/path.rs:7-12 | Without `HOME`, user scope falls back to the workspace source. |
| SourcePath.WorkspaceIgnoresHome | src/path.rs:12 | Workspace resolution does not look at `HOME`. |
| SourcePath.ResolveSourceExamples | src/path.rs:19-30 | The source's test cases. |
| Text.Trim | src/skills.rs:164 | `trim` keeps an infix with only whitespace outside it, and the result starts and ends with a non-whitespace character. |
| Paths.Split | src/install.rs:10 | `split` gives one more part than there are separators. No part contains the separator, and the parts glue back into the text. |
| Paths.JoinPlain | src/remove.rs:15 | Joining an ordinary name descends exactly one level. |
| Paths.JoinText | src/config.rs:149-154 | `PathBuf::push` on text: an absolute path replaces the base. Otherwise a slash is inserted exactly when the base is non-empty and does not already end in one. |
| FileSystem.RemoveDirAll | src/skills.rs:84 | `remove_dir_all` fails on a missing path or a file. Otherwise it deletes exactly the entries at or below the path. |
| FileSystem.CreateDirAll | src/skills.rs:87 | `create_dir_all` fails exactly when a file blocks the path. Otherwise every prefix is a directory, nothing that existed changes, and only directories on the way are added. |

## Left out

- I/O is not modelled. Printed messages become the event trace or are dropped.
- An error reading stdin is not modelled. At end of input the next line reads as empty.
- Flushing stdout is not modelled.
- git and the platform cache directory are parameters (`Install.Env`).
- The config directory, `load`/`save` and JSON (de)serialisation are not modelled. Only the migration rule and the defaults are.
- src/main.rs is not part of this model. It is command dispatch and display only. Scaffolding follows the four-parameter signature in src/add.rs.
- src/doc.rs is not part of this model. It is a static text.
- Filesystem failures are not modelled: permissions, transient I/O errors, symlinks and non-UTF-8 names. Every abstract operation succeeds unless its own precondition fails.
- `use_ssh` and `skill_dirs` are declared, but install never reads them. They are modelled only as default values.
- Arbiter.Classify has no contract of its own. It is the trimmed, lower-cased comparison, and it is used by the contracts of Decide, Ask, StoreDecide and Purge.
- Scaffold.AddSkill: `user_scope` only changes the final message, so the model drops it.
- Scaffold.ValidName: `char::is_alphanumeric` is restricted to ASCII letters and digits, because Unicode categories are not modelled.
- Scaffold.Heading: `to_uppercase` and `to_lowercase` are ASCII-only for the same reason.
- `HOME` is a component path (`Option<Path>`) in install and remove, and a string (`Option<string>`) in the string helpers of config and path.
- `PathBuf` equality is component-based. `ExpandHome` and `ResolveSource` return strings, so `//` and a trailing `/` are not normalised.
- `..` and `.` inside a joined name are resolved lexically (`Paths.Resolve`). The source leaves them to the operating system.
- Remove.RemoveSkillAsWritten: a name whose last component is `.` or `..` names a directory that the model deletes whole, and then it carries on with the next target. The source instead calls `remove_dir_all` on a path ending in `.` or `..`. That empties the directory, and then the final `rmdir` of that path fails. The error ends the removal at src/remove.rs:48-50, leaving the directory in place and empty and the later targets untouched. The corrected Remove.RemoveSkill rejects such names, so the difference only affects the as-written version.
- The same `Overwrote` event stands for both "Overwrote" and "Copied to" messages.
- The `(will overwrite rest)` suffix is not kept.
- Copier.CopyReplacesSubtree requires that the destination is not inside the source. Copying into one's own subtree would make `copy_dir_recursive` read directories it is still creating, and the model copies a snapshot instead.
- Copier.CopyTree copies a snapshot of the source tree. The order in which `read_dir` yields entries, and any failure midway through the copy, are not modelled.
- The user store stays at `~/.ai/skills` for install, remove and `resolve_source`, although the workspace default moved to `.skillset/skills`. The model keeps both as the source does.

## Findings

| source | as written | input that shows it | evidently intended | confidence | as-written member | corrected member |
|---|---|---|---|---|---|---|
| src/remove.rs:15,57 | The skill name is only checked for emptiness, then joined onto every target and onto the user store with `join`. | Skill `/srv`, target `/t`, `--yes`: `Path::join` with an absolute name yields `/srv`, which exists, so it is collected and `remove_dir_all("/srv")` deletes it. | Only the skill's own directory inside each target is deleted; names that are not one ordinary component are rejected, as `add` already does. | not executed | Remove.RemoveSkillAsWritten, Remove.AbsoluteNameEscapes | Remove.RemoveSkill |

=== FILE: arbiter.dfy ===
/** The overwrite arbiter shared by `sync_skills` and `install_package`: for
    each (skill, target) pair it decides, from the destination's existence,
    the policy and the user's answer, whether to copy, and it runs a sequence
    of pairs, stopping at the first failed copy. */
module Arbiter {
  import opened Types
  import opened Paths
  import opened FileSystem
  import opened Text
  import opened Copier

  /** `OverwritePolicy`: ask for every existing destination, or overwrite all. */
  datatype Policy = PerSkill | All

  /** A destination as the caller names it: a label used in prompts and
      messages, and the base directory that receives the skills. */
  datatype Target = Target(tool: string, dir: Path)

  datatype Pair = Pair(skill: string, target: Target)

  /** What the user sees for each pair: a prompt, and then one decision. */
  datatype Event =
    | Copied(skill: string, tool: string)     // destination was absent
    | Prompted(skill: string, tool: string)   // asked whether to overwrite
    | Overwrote(skill: string, tool: string)  // existing destination replaced
    | Skipped(skill: string, tool: string)    // existing destination kept

  /** The state threaded through a run: the filesystem, the answer lines not
      yet read and the events so far. */
  datatype Session = Session(fs: FS, input: seq<string>, trace: seq<Event>)

  /** A run's result, final session and final policy. The policy is handed
      back even on failure, as the source's `&mut` parameter is. */
  datatype Run = Run(result: Result<()>, session: Session, policy: Policy)

  // ---------------------------------------------------------------------------
  // Answers
  // ---------------------------------------------------------------------------

  /** The next answer line; at end of input `read_line` yields an empty line. */
  function NextLine(input: seq<string>): string {
    if input == [] then "" else input[0]
  }

  /** The answer lines left after one prompt. */
  function Rest(input: seq<string>): (r: seq<string>)
    ensures r == input[(if input == [] then 0 else 1)..]
  {
    if input == [] then [] else input[1..]
  }

  /** The lines left after `k` prompts: one line each while lines remain. */
  function Consume(input: seq<string>, k: nat): seq<string> {
    input[(if k < |input| then k else |input|)..]
  }

  lemma ConsumeRest(input: seq<string>, k: nat)
    ensures Consume(Rest(input), k) == Consume(input, k + 1)
  {
  }

  /** The answer as the source compares it: trimmed, then lower-cased. */
  function Normalize(line: string): string {
    Lower(Trim(line))
  }

  datatype Reply = Yes | AllOfThem | Other

  /** `"y" | "yes"` copies, `"a" | "all"` copies and stops asking, anything
      else (the empty end-of-input line included) skips. */
  function Classify(line: string): Reply {
    var a := Normalize(line);
    if a == "y" || a == "yes" then Yes
    else if a == "a" || a == "all" then AllOfThem
    else Other
  }

  // ---------------------------------------------------------------------------
  // One pair
  // ---------------------------------------------------------------------------

  function Source(src: Path, p: Pair): Path {
    src + [p.skill]
  }

  function Dest(p: Pair): (d: Path)
    ensures d != []
  {
    p.target.dir + [p.skill]
  }

  /** Records `done` if the copy `o` succeeded; the run takes the copy's
      filesystem and result. */
  function Place(s: Session, policy: Policy, o: Outcome<()>, done: Event): Run {
    Run(o.result, s.(fs := o.fs, trace := if o.result.Ok? then s.trace + [done] else s.trace), policy)
  }

  /** The run appended `evs` to the trace, less its final decision if the
      copy failed. */
  predicate Appended(s: Session, r: Run, evs: seq<Event>)
    requires evs != []
  {
    r.session.trace == s.trace + (if r.result.Ok? then evs else evs[..|evs| - 1])
  }

  /** The arbiter's decision for one pair, given whether the destination
      exists and what copying the skill there would do. */
  function Decide(s: Session, policy: Policy, p: Pair, present: bool, o: Outcome<()>): (r: Run)
    // An absent destination is copied without a prompt.
    ensures !present ==>
      && r.result == o.result && r.session.fs == o.fs && r.policy == policy && r.session.input == s.input
      && Appended(s, r, [Copied(p.skill, p.target.tool)])
    // Under `All` an existing destination is overwritten without a prompt.
    ensures present && policy == All ==>
      && r.result == o.result && r.session.fs == o.fs && r.policy == All && r.session.input == s.input
      && Appended(s, r, [Overwrote(p.skill, p.target.tool)])
    // Under `PerSkill` an existing destination costs exactly one answer line.
    ensures present && policy == PerSkill ==> r.session.input == Rest(s.input)
    ensures present && policy == PerSkill && Classify(NextLine(s.input)) == Yes ==>
      && r.result == o.result && r.session.fs == o.fs && r.policy == PerSkill
      && Appended(s, r, [Prompted(p.skill, p.target.tool), Overwrote(p.skill, p.target.tool)])
    ensures present && policy == PerSkill && Classify(NextLine(s.input)) == AllOfThem ==>
      && r.result == o.result && r.session.fs == o.fs && r.policy == All
      && Appended(s, r, [Prompted(p.skill, p.target.tool), Overwrote(p.skill, p.target.tool)])
    ensures present && policy == PerSkill && Classify(NextLine(s.input)) == Other ==>
      && r.result.Ok? && r.session.fs == s.fs && r.policy == PerSkill
      && r.session.trace == s.trace + [Prompted(p.skill, p.target.tool), Skipped(p.skill, p.target.tool)]
  {
    if !present then
      Place(s, policy, o, Copied(p.skill, p.target.tool))
    else if policy == All then
      Place(s, All, o, Overwrote(p.skill, p.target.tool))
    else
      Ask(s, p, Classify(NextLine(s.input)), o)
  }

  /** An existing destination under `PerSkill`: the prompt, one answer line
      consumed, and the decision the classified answer `reply` calls for. */
  function Ask(s: Session, p: Pair, reply: Reply, o: Outcome<()>): (r: Run)
    ensures r.session.input == Rest(s.input)
    ensures reply != Other ==>
      && r.result == o.result && r.session.fs == o.fs
      && r.policy == (if reply == Yes then PerSkill else All)
      && Appended(s, r, [Prompted(p.skill, p.target.tool), Overwrote(p.skill, p.target.tool)])
    ensures reply == Other ==>
      && r.result.Ok? && r.session.fs == s.fs && r.policy == PerSkill
      && r.session.trace == s.trace + [Prompted(p.skill, p.target.tool), Skipped(p.skill, p.target.tool)]
  {
    var tool := p.target.tool;
    var asked := s.(input := Rest(s.input), trace := s.trace + [Prompted(p.skill, tool)]);
    match reply
    case Yes => Place(asked, PerSkill, o, Overwrote(p.skill, tool))
    case AllOfThem => Place(asked, All, o, Overwrote(p.skill, tool))
    case Other => Run(Ok(()), asked.(trace := asked.trace + [Skipped(p.skill, tool)]), PerSkill)
  }

  /** One (skill, target) pair: the decision, with the copy `copy_skill` makes. */
  function Step(s: Session, policy: Policy, src: Path, p: Pair): Run {
    Decide(s, policy, p, Dest(p) in s.fs, CopySkill(s.fs, Source(src, p), Dest(p)))
  }

  // ---------------------------------------------------------------------------
  // A sequence of pairs
  // ---------------------------------------------------------------------------

  /** Number of prompts in a trace. */
  function Prompts(trace: seq<Event>): nat {
    if trace == [] then 0 else (if trace[0].Prompted? then 1 else 0) + Prompts(trace[1..])
  }

  /** The (skill, label) of every decision in a trace, prompts left out. */
  function Decisions(trace: seq<Event>): seq<(string, string)> {
    if trace == [] then []
    else (if trace[0].Prompted? then [] else [(trace[0].skill, trace[0].tool)]) + Decisions(trace[1..])
  }

  lemma {:induction false} PromptsAppend(a: seq<Event>, b: seq<Event>)
    ensures Prompts(a + b) == Prompts(a) + Prompts(b)
  {
    if a == [] {
      assert a + b == b;
    } else {
      assert (a + b)[1..] == a[1..] + b;
      PromptsAppend(a[1..], b);
    }
  }

  lemma {:induction false} DecisionsAppend(a: seq<Event>, b: seq<Event>)
    ensures Decisions(a + b) == Decisions(a) + Decisions(b)
  {
    if a == [] {
      assert a + b == b;
    } else {
      assert (a + b)[1..] == a[1..] + b;
      DecisionsAppend(a[1..], b);
    }
  }

  /** The (skill, label) of each pair, in order. */
  function Keys(pairs: seq<Pair>): (r: seq<(string, string)>)
    ensures |r| == |pairs|
    ensures forall i :: 0 <= i < |pairs| ==> r[i] == (pairs[i].skill, pairs[i].target.tool)
  {
    if pairs == [] then [] else [(pairs[0].skill, pairs[0].target.tool)] + Keys(pairs[1..])
  }

  /** The events a run added to its session's trace. */
  function Added(s: Session, r: Run): seq<Event>
    requires |s.trace| <= |r.session.trace|
  {
    r.session.trace[|s.trace|..]
  }

  /** What a run owes its caller, for the pairs with keys `keys`: the trace
      only grows, one answer line is read per prompt, `All` never prompts
      and stays, and success decides every pair once, in order. */
  predicate Accounted(s: Session, policy: Policy, r: Run, keys: seq<(string, string)>) {
    && |s.trace| <= |r.session.trace| && r.session.trace[..|s.trace|] == s.trace
    && r.session.input == Consume(s.input, Prompts(Added(s, r)))
    && (policy == All ==> r.policy == All && Prompts(Added(s, r)) == 0)
    && (r.result.Ok? ==> Decisions(Added(s, r)) == keys)
  }

  /** Two runs in sequence account for the concatenation of their pairs; the
      second may start from a session whose filesystem the caller changed in
      between, and from any policy no weaker than the first run's. */
  lemma Chain(s: Session, policy: Policy, r1: Run, mid: Session, policy2: Policy, r2: Run,
              k1: seq<(string, string)>, k2: seq<(string, string)>)
    requires Accounted(s, policy, r1, k1) && r1.result.Ok?
    requires mid.trace == r1.session.trace && mid.input == r1.session.input
    requires policy == All ==> policy2 == All
    requires Accounted(mid, policy2, r2, k2)
    ensures Accounted(s, policy, r2, k1 + k2)
  {
    var d1 := Added(s, r1);
    var d2 := Added(mid, r2);
    Extends(s.trace, r1.session.trace, r2.session.trace);
    PromptsAppend(d1, d2);
    DecisionsAppend(d1, d2);
    ConsumeTwice(s.input, Prompts(d1), Prompts(d2));
  }

  /** A trace extended twice: the events added overall are those of the
      first extension, then those of the second. */
  lemma Extends(a: seq<Event>, b: seq<Event>, c: seq<Event>)
    requires |a| <= |b| <= |c| && b[..|a|] == a && c[..|b|] == b
    ensures |a| <= |c| && c[..|a|] == a
    ensures c[|a|..] == b[|a|..] + c[|b|..]
  {
    assert c[..|b|][..|a|] == c[..|a|];
  }

  /** The pairs in order, each through `Step`, stopping at the first failure. */
  function RunPairs(s: Session, policy: Policy, src: Path, pairs: seq<Pair>): (r: Run)
    // The trace only grows.
    ensures |s.trace| <= |r.session.trace| && r.session.trace[..|s.trace|] == s.trace
    // Answers are consumed one per prompt, in order.
    ensures r.session.input == Consume(s.input, Prompts(Added(s, r)))
    // Under `All` nothing is asked, no answer is read and the policy stays.
    ensures policy == All ==> r.policy == All && Prompts(Added(s, r)) == 0 && r.session.input == s.input
    // A successful run decides every pair exactly once, in the given order.
    ensures r.result.Ok? ==> Decisions(Added(s, r)) == Keys(pairs)
    decreases |pairs|
  {
    if pairs == [] then
      assert Added(s, Run(Ok(()), s, policy)) == [];
      Run(Ok(()), s, policy)
    else
      var p := pairs[0];
      var r1 := Step(s, policy, src, p);
      DecideEffect(s, policy, p, Dest(p) in s.fs, CopySkill(s.fs, Source(src, p), Dest(p)));
      if r1.result.Err? then r1
      else
        var r := RunPairs(r1.session, r1.policy, src, pairs[1..]);
        Chain(s, policy, r1, r1.session, r1.policy, r, [(p.skill, p.target.tool)], Keys(pairs[1..]));
        r
  }

  lemma ConsumeTwice(input: seq<string>, j: nat, k: nat)
    ensures Consume(Consume(input, j), k) == Consume(input, j + k)
  {
  }

  /** What one decision adds: its events, one answer line per prompt, and
      exactly one decision when it succeeds. */
  lemma DecideEffect(s: Session, policy: Policy, p: Pair, present: bool, o: Outcome<()>)
    ensures Accounted(s, policy, Decide(s, policy, p, present, o), [(p.skill, p.target.tool)])
  {
    var r := Decide(s, policy, p, present, o);
    var skill, tool := p.skill, p.target.tool;
    if !present {
      Unprompted(s, policy, r, Copied(skill, tool));
    } else if policy == All {
      Unprompted(s, policy, r, Overwrote(skill, tool));
    } else {
      var e := if Classify(NextLine(s.input)) == Other then Skipped(skill, tool) else Overwrote(skill, tool);
      assert [Prompted(skill, tool), e][..1] == [Prompted(skill, tool)];
      AfterPrompt(s, r, Prompted(skill, tool), e);
    }
  }

  /** A decision taken without asking: one event, or none if the copy failed. */
  lemma Unprompted(s: Session, policy: Policy, r: Run, e: Event)
    requires !e.Prompted?
    requires Appended(s, r, [e]) && r.session.input == s.input
    requires policy == All ==> r.policy == All
    ensures Accounted(s, policy, r, [(e.skill, e.tool)])
  {
    var x := if r.result.Ok? then [e] else [];
    assert r.session.trace == s.trace + x;
    Grown(s.trace, x);
    if r.result.Ok? {
      Single(e);
    }
  }

  /** A decision taken after a prompt: the prompt, then one event unless the
      copy failed; exactly one answer line is read. */
  lemma AfterPrompt(s: Session, r: Run, q: Event, e: Event)
    requires q.Prompted? && !e.Prompted?
    requires Appended(s, r, [q, e]) && r.session.input == Rest(s.input)
    ensures Accounted(s, PerSkill, r, [(e.skill, e.tool)])
  {
    var x := if r.result.Ok? then [q, e] else [q];
    assert r.session.trace == s.trace + x;
    Grown(s.trace, x);
    if r.result.Ok? {
      assert x[1..] == [e] && x[1..][1..] == [];
      Single(e);
    } else {
      assert x[1..] == [];
    }
  }

  /** A single decision: no prompt, and itself as the one decision. */
  lemma Single(e: Event)
    requires !e.Prompted?
    ensures Prompts([e]) == 0 && Decisions([e]) == [(e.skill, e.tool)]
  {
    assert [e][1..] == [];
    assert [(e.skill, e.tool)] + [] == [(e.skill, e.tool)];
  }

  /** The events added to a trace extended by `x` are `x`. */
  lemma Grown(t: seq<Event>, x: seq<Event>)
    ensures (t + x)[..|t|] == t && (t + x)[|t|..] == x
  {
  }
}

=== FILE: config.dfy ===
/** The configuration's pure parts: home expansion of path texts, the
    supported-tools table, the defaults and the migration of the legacy source
    directory applied when a configuration is loaded. */
module Config {
  import opened Types
  import opened Paths

  /** One configured destination: the tool's display name and its skills
      directory as written in the configuration (possibly starting `~/`). */
  datatype Target = Target(tool: string, path: string)

  datatype InstallConfig = InstallConfig(useSsh: bool, skillDirs: seq<string>)

  datatype Config = Config(source: string, targets: seq<Target>, install: InstallConfig)

  // ---------------------------------------------------------------------------
  // expand_home
  // ---------------------------------------------------------------------------

  const Tilde: string := "~/"

  /** `expand_home(path)` with `HOME` given as `home`: a `~/` prefix is
      replaced by the home directory when it is known; anything else is kept. */
  function ExpandHome(path: string, home: Option<string>): (r: string)
    ensures !StartsWith(path, Tilde) ==> r == path
    ensures home.None? ==> r == path
    // With a home, the rest of the path is pushed onto it.
    ensures StartsWith(path, Tilde) && home.Some? && StartsWith(path[2..], "/") ==> r == path[2..]
    ensures (StartsWith(path, Tilde) && home.Some? && !StartsWith(path[2..], "/")
             && (home.value == "" || home.value[|home.value| - 1] == '/')) ==>
      r == home.value + path[2..]
    ensures (StartsWith(path, Tilde) && home.Some? && home.value != ""
             && home.value[|home.value| - 1] != '/' && !StartsWith(path[2..], "/")) ==>
      r == home.value + "/" + path[2..]
  {
    if StartsWith(path, Tilde) && home.Some? then JoinText(home.value, path[2..])
    else path
  }

  /** Expansion is idempotent as long as the home directory itself does not
      start with `~`: the expanded text no longer carries the prefix. */
  lemma ExpandHomeIdempotent(path: string, h: string)
    requires h != "" && h[0] != '~'
    ensures ExpandHome(ExpandHome(path, Some(h)), Some(h)) == ExpandHome(path, Some(h))
  {
    var r := ExpandHome(path, Some(h));
    if StartsWith(path, Tilde) {
      var rest := path[2..];
      if !StartsWith(rest, "/") {
        assert r[0] == h[0];
      }
    }
  }

  lemma ExpandHomeExamples()
    ensures ExpandHome("~/.skillset/skills", Some("/home/user")) == "/home/user/.skillset/skills"
    ensures ExpandHome("/absolute/path", Some("/home/user")) == "/absolute/path"
  {
    var p := "~/.skillset/skills";
    assert StartsWith(p, Tilde);
    assert p[2..] == ".skillset/skills";
    assert "/absolute/path"[..2][0] == '/';
  }

  // ---------------------------------------------------------------------------
  // The supported tools
  // ---------------------------------------------------------------------------

  /** `supported_tools()`, which is also the default target list. */
  function SupportedTools(): seq<Target> {
    [ Target("Cursor", "~/.cursor/skills"),
      Target("Claude Code", "~/.claude/skills"),
      Target("Windsurf", "~/.windsurf/skills"),
      Target("Codex", "~/.codex/skills"),
      Target("OpenCode", "~/.opencode/skills"),
      Target("Gemini", "~/.gemini/skills"),
      Target("GitHub Copilot (project)", ".github/skills"),
      Target("GitHub Copilot (personal)", "~/.copilot/skills") ]
  }

  /** The targets that live in the user's home directory. */
  function UserLevel(ts: seq<Target>): (r: seq<Target>)
    ensures forall t :: t in r <==> t in ts && StartsWith(t.path, Tilde)
  {
    if ts == [] then []
    else (if StartsWith(ts[0].path, Tilde) then [ts[0]] else []) + UserLevel(ts[1..])
  }

  /** The targets relative to the workspace. */
  function WorkspaceLevel(ts: seq<Target>): (r: seq<Target>)
    ensures forall t :: t in r <==> t in ts && !StartsWith(t.path, Tilde)
  {
    if ts == [] then []
    else (if StartsWith(ts[0].path, Tilde) then [] else [ts[0]]) + WorkspaceLevel(ts[1..])
  }

  /** Every target is either user-level or workspace-level, never both. */
  lemma {:induction false} LevelsPartition(ts: seq<Target>)
    ensures |UserLevel(ts)| + |WorkspaceLevel(ts)| == |ts|
  {
    if ts != [] {
      LevelsPartition(ts[1..]);
    }
  }

  function Labels(ts: seq<Target>): (r: seq<string>)
    ensures |r| == |ts| && forall i :: 0 <= i < |ts| ==> r[i] == ts[i].tool
  {
    if ts == [] then [] else [ts[0].tool] + Labels(ts[1..])
  }

  /** Eight tools, including the ones the source's tests name, each listed once. */
  lemma SupportedToolsTable()
    ensures |SupportedTools()| == 8
    ensures var ls := Labels(SupportedTools());
      && "Cursor" in ls && "Claude Code" in ls && "Gemini" in ls && "Codex" in ls
      && "GitHub Copilot (project)" in ls && "GitHub Copilot (personal)" in ls
    ensures var ls := Labels(SupportedTools());
      forall i, j :: 0 <= i < j < |ls| ==> ls[i] != ls[j]
  {
    var ts := SupportedTools();
    var ls := Labels(ts);
    assert ls[0] == "Cursor" && ls[1] == "Claude Code" && ls[3] == "Codex" && ls[5] == "Gemini";
    assert ls[6] == "GitHub Copilot (project)" && ls[7] == "GitHub Copilot (personal)";
    forall i, j | 0 <= i < j < |ls| ensures ls[i] != ls[j] {
      assert ls[i] == ts[i].tool && ls[j] == ts[j].tool;
      assert ts[i].tool != ts[j].tool;
    }
  }

  /** Seven tools use home-relative paths; the one other is the project's
      `.github/skills`. */
  lemma SupportedToolsLevels()
    ensures |UserLevel(SupportedTools())| == 7
    ensures WorkspaceLevel(SupportedTools()) == [Target("GitHub Copilot (project)", ".github/skills")]
  {
    var ts := SupportedTools();
    assert ".github/skills"[..2][0] == '.';
    assert forall i :: 0 <= i < |ts| && i != 6 ==> ts[i].path[..2] == Tilde;
    OnlyWorkspaceTarget(ts, 6);
    LevelsPartition(ts);
  }

  /** When exactly one target is workspace-relative, it is the whole
      workspace level. */
  lemma {:induction false} OnlyWorkspaceTarget(ts: seq<Target>, k: nat)
    requires k < |ts| && !StartsWith(ts[k].path, Tilde)
    requires forall i :: 0 <= i < |ts| && i != k ==> StartsWith(ts[i].path, Tilde)
    ensures WorkspaceLevel(ts) == [ts[k]]
  {
    if k == 0 {
      AllUserLevel(ts[1..]);
    } else {
      OnlyWorkspaceTarget(ts[1..], k - 1);
    }
  }

  lemma {:induction false} AllUserLevel(ts: seq<Target>)
    requires forall i :: 0 <= i < |ts| ==> StartsWith(ts[i].path, Tilde)
    ensures WorkspaceLevel(ts) == []
  {
    if ts != [] {
      AllUserLevel(ts[1..]);
    }
  }

  // ---------------------------------------------------------------------------
  // Defaults and the legacy migration
  // ---------------------------------------------------------------------------

  const DefaultSource: string := ".skillset/skills"

  /** The source directory older versions defaulted to. */
  const LegacySource: string := ".ai/skills"

  const DefaultSkillDirs: seq<string> := [".claude/skills", "skills"]

  const DefaultInstall: InstallConfig := InstallConfig(false, DefaultSkillDirs)

  /** The configuration written when none exists yet. */
  const DefaultConfig: Config := Config(DefaultSource, SupportedTools(), DefaultInstall)

  /** A loaded configuration and whether loading has to write it back. */
  datatype Loaded = Loaded(config: Config, rewrite: bool)

  /** The migration `load` applies: the legacy source becomes the default one
      and the file is rewritten; any other configuration is kept as read. */
  function Migrate(c: Config): (r: Loaded)
    ensures r.rewrite <==> c.source == LegacySource
    ensures r.config.source != LegacySource
    ensures r.rewrite ==> r.config.source == DefaultSource
    ensures !r.rewrite ==> r.config == c
    // Only the source is ever touched.
    ensures r.config.targets == c.targets && r.config.install == c.install
  {
    if c.source == LegacySource then Loaded(c.(source := DefaultSource), true)
    else Loaded(c, false)
  }

  /** Loading a migrated configuration again changes nothing and writes
      nothing. */
  lemma MigrateIdempotent(c: Config)
    ensures var once := Migrate(c).config;
      Migrate(once) == Loaded(once, false)
  {
  }

  /** The defaults: `.skillset/skills` as the source, the supported tools as
      targets, SSH off and the two candidate directories in order. A fresh
      default configuration needs no migration. */
  lemma DefaultsAreCurrent()
    ensures DefaultConfig.source == ".skillset/skills" && DefaultConfig.targets == SupportedTools()
    ensures !DefaultConfig.install.useSsh
    ensures DefaultConfig.install.skillDirs == [".claude/skills", "skills"]
    ensures Migrate(DefaultConfig) == Loaded(DefaultConfig, false)
  {
    assert DefaultSource != LegacySource by { assert DefaultSource[1] != LegacySource[1]; }
  }
}

=== FILE: copier.dfy ===
/** The copier (`copy_skill` and `copy_dir_recursive`): the destination tree
    is removed and then recreated as an exact copy of the source tree. */
module Copier {
  import opened Types
  import opened Paths
  import opened FileSystem

  /** `copy_dir_recursive`: the tree at `from` recreated at `to`, directories
      as directories and files byte for byte. A source that is gone fails,
      as the final file copy finds nothing to read. */
  function CopyTree(fs: FS, from: Path, to: Path): (r: Result<FS>)
    ensures from !in fs <==> r == Err(CopyFailed(from))
    ensures r.Ok? ==> forall s :: from + s in fs ==> to + s in r.value && r.value[to + s] == fs[from + s]
    ensures r.Ok? ==> forall p :: p in fs && !Under(p, to) ==> p in r.value && r.value[p] == fs[p]
    ensures r.Ok? ==> forall p :: p in r.value && !Under(p, to) ==> p in fs
  {
    if from !in fs then Err(CopyFailed(from))
    else Ok(Graft(fs, Subtree(fs, from), to))
  }

  /** The destination after `if to.exists() { remove_dir_all(to) }`. */
  function Clear(fs: FS, to: Path): (r: Result<FS>)
    ensures to !in fs ==> r == Ok(fs)
    ensures to in fs ==> r == RemoveDirAll(fs, to)
  {
    if to in fs then RemoveDirAll(fs, to) else Ok(fs)
  }

  /** `copy_skill(from, to)`. Whatever happens, paths outside `to` keep their
      contents and the only paths added outside it are directories on the way
      to `to`: a failure after the destination was cleared leaves it cleared. */
  function CopySkill(fs: FS, from: Path, to: Path): (o: Outcome<()>)
    requires to != []
    ensures from !in fs ==> o == Outcome(Err(SourceMissing(from)), fs)
    ensures from in fs && to in fs && fs[to].File? ==> o == Outcome(Err(NotADirectory(to)), fs)
    ensures forall p :: p in fs && !Under(p, to) ==> p in o.fs && o.fs[p] == fs[p]
    ensures forall p :: p in o.fs && !Under(p, to) && p !in fs ==>
      p in Ancestry(Parent(to)) && o.fs[p] == Dir
  {
    if from !in fs then Outcome(Err(SourceMissing(from)), fs)
    else
      match Clear(fs, to)
      case Err(e) => Outcome(Err(e), fs)
      case Ok(fs1) =>
        match CreateDirAll(fs1, Parent(to))
        case Err(e) => Outcome(Err(e), fs1)
        case Ok(fs2) =>
          match CopyTree(fs2, from, to)
          case Err(e) => Outcome(Err(e), fs2)
          case Ok(fs3) => Outcome(Ok(()), fs3)
  }

  /** No directory on the way to `to`'s parent lies below `to`. */
  lemma AncestryNotUnder(to: Path)
    requires to != []
    ensures forall q :: q in Ancestry(Parent(to)) ==> !Under(q, to)
  {
  }

  /** After clearing and creating the parent, nothing is left below `to`. */
  lemma {:induction false} ClearedLeavesNothing(fs: FS, to: Path)
    requires Valid(fs) && to != []
    requires Clear(fs, to).Ok? && CreateDirAll(Clear(fs, to).value, Parent(to)).Ok?
    ensures forall p :: p in CreateDirAll(Clear(fs, to).value, Parent(to)).value ==> !Under(p, to)
  {
    var fs1 := Clear(fs, to).value;
    var fs2 := CreateDirAll(fs1, Parent(to)).value;
    DescendantImpliesExists(fs, to);
    AncestryNotUnder(to);
    forall p | p in fs2 ensures !Under(p, to) {
      if p !in fs1 {
        assert p in Ancestry(Parent(to));
      }
    }
  }

  /** Copying succeeds whenever the source exists outside the destination,
      the destination is not a file and no file blocks the way to it. */
  lemma CopySucceeds(fs: FS, from: Path, to: Path)
    requires to != [] && from in fs && !Under(from, to)
    requires !(to in fs && fs[to].File?)
    requires !BlockedByFile(fs, Parent(to))
    ensures CopySkill(fs, from, to).result.Ok?
  {
    var fs1 := Clear(fs, to).value;
    AncestryNotUnder(to);
    assert !BlockedByFile(fs1, Parent(to));
  }

  /** Copying over an ancestor of the source fails: clearing the destination
      removes the source first. */
  lemma CopyOntoAncestorFails(fs: FS, from: Path, to: Path)
    requires Valid(fs) && to != []
    ensures Under(from, to) ==> CopySkill(fs, from, to).result.Err?
  {
    DescendantImpliesExists(fs, to);
    var c := Clear(fs, to);
    if Under(from, to) && from in fs {
      assert from !in Ancestry(Parent(to));
      if c.Ok? {
        assert from !in c.value;
      }
    }
  }

  /** Clearing the destination and creating its parent leave every path below
      a source that is not nested with the destination as it was. */
  lemma {:induction false} SourcePathsUntouched(fs: FS, from: Path, to: Path, s: Path)
    requires Valid(fs) && to != [] && !Under(to, from) && !Under(from, to)
    requires Clear(fs, to).Ok? && CreateDirAll(Clear(fs, to).value, Parent(to)).Ok?
    ensures var fs2 := CreateDirAll(Clear(fs, to).value, Parent(to)).value;
      (from + s in fs2) == (from + s in fs) && (from + s in fs ==> fs2[from + s] == fs[from + s])
  {
    var fs1 := Clear(fs, to).value;
    var fs2 := CreateDirAll(fs1, Parent(to)).value;
    AncestryBelow(from, Parent(to));
    assert !Under(Parent(to), from) by {
      if |from| <= |Parent(to)| {
        assert to[..|from|] == Parent(to)[..|from|];
      }
    }
    assert Under(from + s, from);
    DisjointBelow(from + s, from, to);
    assert (from + s in fs1) == (from + s in fs);
  }

  lemma SourceUntouched(fs: FS, from: Path, to: Path)
    requires Valid(fs) && to != [] && !Under(to, from) && !Under(from, to)
    requires Clear(fs, to).Ok? && CreateDirAll(Clear(fs, to).value, Parent(to)).Ok?
    ensures Subtree(CreateDirAll(Clear(fs, to).value, Parent(to)).value, from) == Subtree(fs, from)
  {
    var fs2 := CreateDirAll(Clear(fs, to).value, Parent(to)).value;
    forall s ensures (from + s in fs2) == (from + s in fs)
      && (from + s in fs ==> fs2[from + s] == fs[from + s])
    {
      SourcePathsUntouched(fs, from, to, s);
    }
    SubtreesAgree(fs2, fs, from);
  }

  /** After a successful copy the tree at `to` is exactly the tree that was at
      `from`: nothing of the old destination survives and nothing is missing. */
  lemma CopyReplacesSubtree(fs: FS, from: Path, to: Path)
    requires Valid(fs) && to != [] && !Under(to, from)
    requires CopySkill(fs, from, to).result.Ok?
    ensures Subtree(CopySkill(fs, from, to).fs, to) == Subtree(fs, from)
  {
    CopyOntoAncestorFails(fs, from, to);
    var fs2 := CreateDirAll(Clear(fs, to).value, Parent(to)).value;
    ClearedLeavesNothing(fs, to);
    SourceUntouched(fs, from, to);
    GraftedSubtree(fs2, Subtree(fs2, from), to);
  }

  /** Copying keeps the filesystem a tree. */
  lemma CopyKeepsTree(fs: FS, from: Path, to: Path)
    requires Valid(fs) && to != []
    requires CopySkill(fs, from, to).result.Ok?
    ensures Valid(CopySkill(fs, from, to).fs)
  {
    var fs1 := Clear(fs, to).value;
    var fs2 := CreateDirAll(fs1, Parent(to)).value;
    ClearedLeavesNothing(fs, to);
    assert from in fs2;
    StepsKeepTree(fs, fs1, fs2, from, to);
  }

  /** Clearing, creating the parent and grafting each keep the tree. */
  lemma StepsKeepTree(fs: FS, fs1: FS, fs2: FS, from: Path, to: Path)
    requires Valid(fs) && to != []
    requires Clear(fs, to) == Ok(fs1) && CreateDirAll(fs1, Parent(to)) == Ok(fs2)
    requires forall p :: p in fs2 ==> !Under(p, to)
    requires from in fs2
    ensures Valid(Graft(fs2, Subtree(fs2, from), to))
  {
    if to in fs {
      PruneKeepsTree(fs, to);
    }
    CreateDirAllKeepsTree(fs1, Parent(to));
    SubtreeShaped(fs2, from);
    assert Parent(to) == Parent(to)[..|Parent(to)|];
    GraftKeepsTree(fs2, Subtree(fs2, from), to);
  }
}

=== FILE: discovery.dfy ===
/** Skill discovery (`discover_skills`): the sorted names of the immediate
    subdirectories of a root that hold a `SKILL.md` manifest. */
module Discovery {
  import opened Types
  import opened Paths
  import opened FileSystem
  import opened Order

  const Manifest: string := "SKILL.md"

  /** `name` is a skill under `root`: a directory entry that holds the manifest.
      The manifest only has to exist; it may itself be a file or a directory. */
  predicate IsSkill(fs: FS, root: Path, name: string) {
    IsDir(fs, root + [name]) && root + [name] + [Manifest] in fs
  }

  /** The skills directly under `root`, as a set. */
  function SkillNames(fs: FS, root: Path): (names: set<string>)
    ensures forall n :: n in names <==> IsSkill(fs, root, n)
  {
    var names := set p | p in fs && |p| == |root| + 1 && p[..|root|] == root
                         && IsSkill(fs, root, p[|root|]) :: p[|root|];
    assert forall n :: IsSkill(fs, root, n) ==> n in names by {
      forall n | IsSkill(fs, root, n) ensures n in names {
        var p := root + [n];
        assert p[..|root|] == root && p[|root|] == n;
      }
    }
    names
  }

  /** `discover_skills`: a missing root lists nothing; a root that is a file
      cannot be read; otherwise the skills under it in sorted order. */
  function Discover(fs: FS, root: Path): (r: Result<seq<string>>)
    ensures root !in fs ==> r == Ok([])
    ensures root in fs && fs[root].File? ==> r == Err(ReadDirFailed(root))
    ensures IsDir(fs, root) ==> r.Ok?
    ensures r.Ok? ==> StrictlySorted(r.value)
    ensures r.Ok? ==> forall n :: n in r.value <==> root in fs && IsSkill(fs, root, n)
  {
    if root !in fs then Ok([])
    else if fs[root].File? then Err(ReadDirFailed(root))
    else Ok(Sort(SkillNames(fs, root)))
  }

  /** Strict order leaves no room for repeated names. */
  lemma DiscoverNoDuplicates(fs: FS, root: Path)
    requires Discover(fs, root).Ok?
    ensures var names := Discover(fs, root).value;
      forall i, j :: 0 <= i < j < |names| ==> names[i] != names[j]
  {
  }

  /** A subdirectory without the manifest is never listed, whatever else it
      holds, and neither is a plain file. */
  lemma DiscoverSkipsNonSkills(fs: FS, root: Path, name: string)
    requires Discover(fs, root).Ok?
    requires root + [name] !in fs || fs[root + [name]].File? || root + [name] + [Manifest] !in fs
    ensures name !in Discover(fs, root).value
  {
  }

  /** Discovery sees only the root's kind and, for each name, whether it is a
      skill: two filesystems that agree on those list the same names. */
  lemma {:induction false} DiscoverDependsOnlyOnSkills(fs: FS, fs': FS, root: Path)
    requires (root in fs) == (root in fs')
    requires root in fs ==> fs[root] == fs'[root]
    requires forall n :: IsSkill(fs, root, n) == IsSkill(fs', root, n)
    ensures Discover(fs, root) == Discover(fs', root)
  {
    if IsDir(fs, root) {
      assert SkillNames(fs, root) == SkillNames(fs', root);
    }
  }
}

=== FILE: fs.dfy ===
/** The abstract filesystem: a finite map from paths to nodes, and the
    primitive operations the engine performs on it (Rust's `remove_dir_all`,
    `create_dir_all` and `write`). Each primitive either fails with the
    filesystem untouched or succeeds. */
module FileSystem {
  import opened Types
  import opened Paths

  newtype byte = x: int | 0 <= x < 256

  datatype Node = Dir | File(data: seq<byte>)

  type FS = map<Path, Node>

  /** The result of a composite operation together with the filesystem it
      leaves behind, which on failure holds the effects made before the
      failing step. */
  datatype Outcome<+T> = Outcome(result: Result<T>, fs: FS)

  predicate IsDir(fs: FS, p: Path) {
    p in fs && fs[p].Dir?
  }

  /** Every entry's parent is a directory and the root is one: the shape of a
      real directory tree. */
  predicate Valid(fs: FS) {
    && IsDir(fs, [])
    && forall p :: p in fs && p != [] ==> IsDir(fs, Parent(p))
  }

  /** In a tree, every proper prefix of an existing path is a directory. */
  lemma {:induction false} AncestorsAreDirs(fs: FS, q: Path, i: nat)
    requires Valid(fs) && q in fs && i < |q|
    ensures IsDir(fs, q[..i])
    decreases |q|
  {
    var r := Parent(q);
    assert r in fs;
    if i == |r| {
      assert q[..i] == r;
    } else {
      AncestorsAreDirs(fs, r, i);
      assert r[..i] == q[..i];
    }
  }

  /** In a tree, a path with anything at or below it exists: a missing path
      has nothing below it. */
  lemma DescendantImpliesExists(fs: FS, p: Path)
    requires Valid(fs)
    ensures forall q :: q in fs && Under(q, p) ==> p in fs
  {
    forall q | q in fs && Under(q, p) ensures p in fs {
      if |p| < |q| {
        AncestorsAreDirs(fs, q, |p|);
      } else {
        assert q == q[..|p|];
      }
    }
  }

  /** A path below one of two unnested paths is not below the other. */
  lemma DisjointBelow(p: Path, a: Path, b: Path)
    requires Under(p, a) && !Under(a, b) && !Under(b, a)
    ensures !Under(p, b)
  {
    if |b| <= |a| {
      if |b| <= |p| {
        assert p[..|b|] == a[..|b|];
      }
    } else if |b| <= |p| {
      assert p[..|b|][..|a|] == a;
    }
  }

  /** A directory on the way to `to` that lies below `from` puts `to` below
      `from` as well. */
  lemma AncestryBelow(from: Path, to: Path)
    ensures forall q :: q in Ancestry(to) && Under(q, from) ==> Under(to, from)
  {
    forall q | q in Ancestry(to) && Under(q, from) ensures Under(to, from) {
      assert to[..|from|] == q[..|from|];
    }
  }

  /** The subtree grafted at a place where nothing was is the tree itself. */
  lemma GraftedSubtree(fs: FS, tree: map<Path, Node>, to: Path)
    requires forall p :: p in fs ==> !Under(p, to)
    ensures Subtree(Graft(fs, tree, to), to) == tree
  {
    var g := Graft(fs, tree, to);
    var got := Subtree(g, to);
    forall s ensures s in got <==> s in tree {
      assert Under(to + s, to) && (to + s)[|to|..] == s;
    }
  }

  lemma UnderTransitive(p: Path, q: Path, r: Path)
    requires Under(p, q) && Under(q, r)
    ensures Under(p, r)
  {
    assert p[..|r|] == p[..|q|][..|r|];
  }

  /** A path whose parent lies below `root` lies below it too. */
  lemma ParentUnder(p: Path, root: Path)
    requires p != [] && Under(Parent(p), root)
    ensures Under(p, root)
  {
    assert p[..|root|] == Parent(p)[..|root|];
  }

  // ---------------------------------------------------------------------------
  // Subtrees
  // ---------------------------------------------------------------------------

  lemma Rebase(p: Path, root: Path)
    requires Under(p, root)
    ensures root + p[|root|..] == p
  {
  }

  /** The entries at and below `root`, keyed by their path relative to it. */
  function Subtree(fs: FS, root: Path): (t: map<Path, Node>)
    ensures forall s :: s in t <==> root + s in fs
    ensures forall s :: s in t ==> t[s] == fs[root + s]
  {
    var rel := set p | p in fs && Under(p, root) :: p[|root|..];
    var t := map s | s in rel && root + s in fs :: fs[root + s];
    assert forall s :: root + s in fs ==> s in t by {
      forall s | root + s in fs ensures s in t {
        var p := root + s;
        assert Under(p, root) && p[|root|..] == s;
      }
    }
    t
  }

  /** Filesystems that agree at and below `root` have the same subtree there. */
  lemma SubtreesAgree(fs: FS, fs': FS, root: Path)
    requires forall s :: (root + s in fs) == (root + s in fs')
    requires forall s :: root + s in fs ==> fs[root + s] == fs'[root + s]
    ensures Subtree(fs, root) == Subtree(fs', root)
  {
    var a := Subtree(fs, root);
    var b := Subtree(fs', root);
    assert forall s :: s in a <==> s in b;
  }

  /** `fs` without the entries at and below `root`. */
  function Prune(fs: FS, root: Path): (r: FS)
    ensures forall p :: p in r <==> p in fs && !Under(p, root)
    ensures forall p :: p in r ==> r[p] == fs[p]
  {
    map p | p in fs && !Under(p, root) :: fs[p]
  }

  /** `fs` with `tree` placed at `to`, replacing whatever was at those paths. */
  function Graft(fs: FS, tree: map<Path, Node>, to: Path): (r: FS)
    ensures forall s :: s in tree ==> to + s in r && r[to + s] == tree[s]
    ensures forall p :: p in r ==> p in fs || (Under(p, to) && p[|to|..] in tree)
    ensures forall p :: p in fs && !Under(p, to) ==> p in r && r[p] == fs[p]
  {
    var placed := map p | p in (set s | s in tree :: to + s) :: tree[p[|to|..]];
    assert forall s :: s in tree ==> to + s in placed && placed[to + s] == tree[s] by {
      forall s | s in tree ensures to + s in placed && placed[to + s] == tree[s] {
        assert (to + s)[|to|..] == s;
      }
    }
    assert forall p :: p in placed ==> Under(p, to) && p[|to|..] in tree by {
      forall p | p in placed ensures Under(p, to) && p[|to|..] in tree {
        var s :| s in tree && p == to + s;
        assert p[|to|..] == s;
      }
    }
    fs + placed
  }

  // ---------------------------------------------------------------------------
  // Primitive operations
  // ---------------------------------------------------------------------------

  /** The paths from the root down to `p`, both ends included. */
  function Ancestry(p: Path): (r: set<Path>)
    ensures forall q :: q in r <==> |q| <= |p| && q == p[..|q|]
  {
    var r := set i | 0 <= i <= |p| :: p[..i];
    assert forall q :: |q| <= |p| && q == p[..|q|] ==> q in r by {
      forall q | |q| <= |p| && q == p[..|q|] ensures q in r {
        assert q == p[..|q|];
      }
    }
    r
  }

  /** Rust's `fs::remove_dir_all`: removes a directory and everything below
      it; a missing path or a file fails and changes nothing. */
  function RemoveDirAll(fs: FS, p: Path): (r: Result<FS>)
    ensures p !in fs ==> r == Err(NotFound(p))
    ensures p in fs && fs[p].File? ==> r == Err(NotADirectory(p))
    ensures IsDir(fs, p) ==> r.Ok?
    ensures r.Ok? ==> forall q :: q in r.value <==> q in fs && !Under(q, p)
    ensures r.Ok? ==> forall q :: q in r.value ==> r.value[q] == fs[q]
  {
    if p !in fs then Err(NotFound(p))
    else if fs[p].File? then Err(NotADirectory(p))
    else Ok(Prune(fs, p))
  }

  /** Some path from the root down to `p` is a file. */
  predicate BlockedByFile(fs: FS, p: Path) {
    exists q :: q in Ancestry(p) && q in fs && fs[q].File?
  }

  /** Rust's `fs::create_dir_all`: makes `p` and every missing ancestor a
      directory. It fails, changing nothing, when a file stands on the way. */
  function CreateDirAll(fs: FS, p: Path): (r: Result<FS>)
    ensures r.Err? <==> BlockedByFile(fs, p)
    ensures r.Err? ==> r.error == CreateDirFailed(p)
    ensures r.Ok? ==> forall i :: 0 <= i <= |p| ==> IsDir(r.value, p[..i])
    ensures r.Ok? ==> forall q :: q in fs ==> q in r.value && r.value[q] == fs[q]
    ensures r.Ok? ==> forall q :: q in r.value && q !in fs ==> q in Ancestry(p) && r.value[q] == Dir
  {
    if BlockedByFile(fs, p) then Err(CreateDirFailed(p))
    else
      var made := map q | q in Ancestry(p) && q !in fs :: Dir;
      var r := fs + made;
      assert forall i :: 0 <= i <= |p| ==> IsDir(r, p[..i]) by {
        forall i | 0 <= i <= |p| ensures IsDir(r, p[..i]) {
          var q := p[..i];
          assert q in Ancestry(p);
          if q in fs {
            assert !fs[q].File?;
          }
        }
      }
      Ok(r)
  }

  /** Rust's `fs::write`: creates or truncates the file at `p`. It fails,
      changing nothing, when `p` has no directory to live in or is a directory. */
  function WriteFile(fs: FS, p: Path, data: seq<byte>): (r: Result<FS>)
    ensures r.Ok? <==> p != [] && IsDir(fs, Parent(p)) && !IsDir(fs, p)
    ensures r.Ok? ==> r.value == fs[p := File(data)]
  {
    if p == [] || !IsDir(fs, Parent(p)) || IsDir(fs, p) then Err(WriteFailed(p))
    else Ok(fs[p := File(data)])
  }

  /** A relative tree whose every non-root entry has a directory parent. */
  predicate TreeShaped(tree: map<Path, Node>) {
    && [] in tree
    && forall s :: s in tree && s != [] ==> Parent(s) in tree && tree[Parent(s)].Dir?
  }

  lemma SubtreeShaped(fs: FS, root: Path)
    requires Valid(fs) && root in fs
    ensures TreeShaped(Subtree(fs, root))
  {
    var t := Subtree(fs, root);
    assert root + [] == root;
    forall s | s in t && s != [] ensures Parent(s) in t && t[Parent(s)].Dir? {
      assert Parent(root + s) == root + Parent(s);
    }
  }

  lemma PruneKeepsTree(fs: FS, root: Path)
    requires Valid(fs) && root != []
    ensures Valid(Prune(fs, root))
  {
    var r := Prune(fs, root);
    forall p | p in r && p != [] ensures IsDir(r, Parent(p)) {
      if Under(Parent(p), root) {
        ParentUnder(p, root);
      }
    }
  }

  lemma CreateDirAllKeepsTree(fs: FS, p: Path)
    requires Valid(fs) && CreateDirAll(fs, p).Ok?
    ensures Valid(CreateDirAll(fs, p).value)
  {
    var r := CreateDirAll(fs, p).value;
    forall q | q in r && q != [] ensures IsDir(r, Parent(q)) {
      if q !in fs {
        assert q in Ancestry(p);
        assert Parent(q) == p[..|q| - 1];
      }
    }
  }

  lemma GraftKeepsTree(fs: FS, tree: map<Path, Node>, to: Path)
    requires Valid(fs) && TreeShaped(tree)
    requires to != [] && IsDir(fs, Parent(to))
    requires forall q :: q in fs ==> !Under(q, to)
    ensures Valid(Graft(fs, tree, to))
  {
    var g := Graft(fs, tree, to);
    assert !Under([], to);
    forall p | p in g && p != [] ensures IsDir(g, Parent(p)) {
      if Under(p, to) && p[|to|..] in tree {
        var s := p[|to|..];
        Rebase(p, to);
        if s == [] {
          assert p == to;
          assert !Under(Parent(to), to);
        } else {
          assert Parent(p) == to + Parent(s);
        }
      } else {
        assert p in fs;
        if Under(Parent(p), to) {
          ParentUnder(p, to);
        }
      }
    }
  }

  lemma WriteFileKeepsTree(fs: FS, p: Path, data: seq<byte>)
    requires Valid(fs) && WriteFile(fs, p, data).Ok?
    ensures Valid(WriteFile(fs, p, data).value)
  {
    var r := WriteFile(fs, p, data).value;
    forall q | q in r && q != [] ensures IsDir(r, Parent(q)) {
      if q != p {
        assert IsDir(fs, Parent(q));
      }
    }
  }

  // ---------------------------------------------------------------------------
  // UTF-8, the bytes a Rust `String` is written as
  // ---------------------------------------------------------------------------

  function EncodeChar(c: char): (r: seq<byte>)
    ensures 1 <= |r| <= 4
    ensures (c as int < 0x80) <==> (|r| == 1)
    ensures c as int < 0x80 ==> r[0] as int == c as int
  {
    var n := c as int;
    if n < 0x80 then [n as byte]
    else if n < 0x800 then [(0xC0 + n / 64) as byte, (0x80 + n % 64) as byte]
    else if n < 0x1_0000 then
      [(0xE0 + n / 4096) as byte, (0x80 + (n / 64) % 64) as byte, (0x80 + n % 64) as byte]
    else
      [(0xF0 + n / 262144) as byte, (0x80 + (n / 4096) % 64) as byte,
       (0x80 + (n / 64) % 64) as byte, (0x80 + n % 64) as byte]
  }

  predicate IsAscii(s: string) {
    forall i :: 0 <= i < |s| ==> s[i] as int < 0x80
  }

  /** The UTF-8 encoding of `s`; ASCII text is encoded one byte per character. */
  function Utf8(s: string): (r: seq<byte>)
    ensures |r| >= |s|
    ensures IsAscii(s) ==> |r| == |s| && forall i :: 0 <= i < |s| ==> r[i] as int == s[i] as int
  {
    if s == [] then [] else EncodeChar(s[0]) + Utf8(s[1..])
  }
}

=== FILE: install.dfy ===
/** Package install (`resolve_package`, `find_skills_dir`, `install_package`):
    an `owner/repo` spec names a cache entry that is reused or cloned, the
    skills directory inside it is probed, and the chosen skills go to the
    targets through the arbiter and then, optionally, to the user store. */
module Install {
  import opened Types
  import opened Paths
  import opened FileSystem
  import opened Order
  import opened Discovery
  import opened Copier
  import opened Arbiter
  import opened Sync

  // ---------------------------------------------------------------------------
  // The package spec
  // ---------------------------------------------------------------------------

  /** `spec.split('/')` must give exactly two parts, owner and repo. Empty
      parts are accepted. */
  function ParseSpec(spec: string): (r: Option<(string, string)>)
    ensures r.Some? <==> Count(spec, '/') == 1
    ensures r.Some? ==> '/' !in r.value.0 && '/' !in r.value.1
    ensures r.Some? ==> spec == r.value.0 + "/" + r.value.1
  {
    var parts := Split(spec, '/');
    if |parts| != 2 then None
    else
      assert parts[1..] == [parts[1]];
      assert Glue(parts, '/') == parts[0] + "/" + parts[1];
      Some((parts[0], parts[1]))
  }

  /** Every owner and repo without a slash is parsed back from its spec. */
  lemma ParseSpecRoundTrip(owner: string, repo: string)
    requires '/' !in owner && '/' !in repo
    ensures ParseSpec(owner + "/" + repo) == Some((owner, repo))
  {
    var parts := [owner, repo];
    assert parts[1..] == [repo];
    assert Glue(parts, '/') == owner + "/" + repo;
    SplitGlue(parts, '/');
  }

  /** The cache entry's directory name. */
  function CacheKey(owner: string, repo: string): string {
    owner + "-" + repo
  }

  function RepoUrl(owner: string, repo: string): string {
    "https://github.com/" + owner + "/" + repo + ".git"
  }

  /** The cache key of a parsed spec is a single ordinary path component. */
  lemma CacheKeyIsPlain(spec: string)
    requires ParseSpec(spec).Some?
    ensures IsPlain(CacheKey(ParseSpec(spec).value.0, ParseSpec(spec).value.1))
  {
    var (owner, repo) := ParseSpec(spec).value;
    var k := CacheKey(owner, repo);
    assert k[|owner|] == '-';
    assert forall i :: 0 <= i < |k| ==> k[i] != '/' by {
      forall i | 0 <= i < |k| ensures k[i] != '/' {
        if i < |owner| {
          assert k[i] == owner[i];
        } else if i > |owner| {
          assert k[i] == repo[i - |owner| - 1];
        }
      }
    }
  }

  /** Two different specs can share a cache entry: the key is not injective. */
  lemma CacheKeyCollides()
    ensures ParseSpec("a-b/c") == Some(("a-b", "c"))
    ensures ParseSpec("a/b-c") == Some(("a", "b-c"))
    ensures CacheKey("a-b", "c") == CacheKey("a", "b-c")
  {
    assert "a-b/c" == "a-b" + "/" + "c";
    assert "a/b-c" == "a" + "/" + "b-c";
    ParseSpecRoundTrip("a-b", "c");
    ParseSpecRoundTrip("a", "b-c");
  }

  /** The spec `anthropics/skills` names its GitHub repository and its entry. */
  lemma ExampleSpec()
    ensures ParseSpec("anthropics/skills") == Some(("anthropics", "skills"))
  {
    assert "anthropics/skills" == "anthropics" + "/" + "skills";
    ParseSpecRoundTrip("anthropics", "skills");
  }

  lemma ExampleUrl()
    ensures RepoUrl("anthropics", "skills") == "https://github.com/anthropics/skills.git"
    ensures CacheKey("anthropics", "skills") == "anthropics-skills"
  {
  }

  // ---------------------------------------------------------------------------
  // The environment
  // ---------------------------------------------------------------------------

  /** What running `git clone --depth 1 <url> <entry>` does. */
  datatype CloneResult =
    | NotRunnable                          // git could not be started
    | Fails                                // git exited unsuccessfully
    | Clones(tree: map<Path, Node>)        // the checked-out tree, relative

  /** The platform cache root, `HOME` and git, as parameters. */
  datatype Env = Env(cache: Option<Path>, home: Option<Path>, git: string -> CloneResult)

  /** Where the cache entries live. */
  function ReposDir(cache: Path): Path {
    cache + ["skillset", "repos"]
  }

  // ---------------------------------------------------------------------------
  // resolve_package
  // ---------------------------------------------------------------------------

  /** The entry for `owner/repo` under a cache root. */
  function Entry(cache: Path, owner: string, repo: string): Path {
    ReposDir(cache) + [CacheKey(owner, repo)]
  }

  /** The clone-or-reuse decision, once the repos directory exists: a present
      entry is used as it is; otherwise git's outcome decides. */
  function Fetch(fs: FS, entry: Path, git: CloneResult, spec: string): (o: Outcome<Path>)
    ensures entry in fs ==> o == Outcome(Ok(entry), fs)
    ensures o.result.Ok? ==> o.result.value == entry && entry in o.fs
    ensures entry !in fs && git == Fails ==> o == Outcome(Err(CloneFailed(spec)), fs)
    ensures entry !in fs && git == NotRunnable ==> o == Outcome(Err(GitNotRunnable), fs)
    ensures entry !in fs && git.Clones? ==> o.result == Ok(entry)
    ensures forall p :: p in fs && !Under(p, entry) ==> p in o.fs && o.fs[p] == fs[p]
  {
    if entry in fs then Outcome(Ok(entry), fs)
    else
      match git
      case NotRunnable => Outcome(Err(GitNotRunnable), fs)
      case Fails => Outcome(Err(CloneFailed(spec)), fs)
      case Clones(tree) =>
        assert entry + [] == entry;
        Outcome(Ok(entry), Graft(fs, tree[[] := Dir], entry))
  }

  /** Creating the repos directory does not create any entry in it. */
  lemma ReposDirAddsNoEntry(fs: FS, cache: Path, key: string)
    requires CreateDirAll(fs, ReposDir(cache)).Ok?
    ensures (ReposDir(cache) + [key] in CreateDirAll(fs, ReposDir(cache)).value) == (ReposDir(cache) + [key] in fs)
  {
  }

  /** `resolve_package(spec)`: the cache entry, reused if present, cloned
      otherwise. */
  function ResolvePackage(fs: FS, env: Env, spec: string): (o: Outcome<Path>)
    // A malformed spec is rejected before any filesystem effect.
    ensures ParseSpec(spec).None? ==> o == Outcome(Err(InvalidSpec(spec)), fs)
    ensures ParseSpec(spec).Some? && env.cache.None? ==> o == Outcome(Err(NoCacheDir), fs)
    // The entry is named by the spec alone.
    ensures o.result.Ok? ==> (ParseSpec(spec).Some? && env.cache.Some?
      && o.result.value == Entry(env.cache.value, ParseSpec(spec).value.0, ParseSpec(spec).value.1)
      && o.result.value in o.fs)
    // A present entry is reused as it is, without a clone.
    ensures (ParseSpec(spec).Some? && env.cache.Some? && CreateDirAll(fs, ReposDir(env.cache.value)).Ok?
      && Entry(env.cache.value, ParseSpec(spec).value.0, ParseSpec(spec).value.1) in fs) ==>
      o == Outcome(Ok(Entry(env.cache.value, ParseSpec(spec).value.0, ParseSpec(spec).value.1)),
                   CreateDirAll(fs, ReposDir(env.cache.value)).value)
    // A clone that fails names the spec.
    ensures o.result.Err? && o.result.error.CloneFailed? ==> o.result.error.spec == spec
    // A repos directory that cannot be made fails with nothing changed.
    ensures ParseSpec(spec).Some? && env.cache.Some? && CreateDirAll(fs, ReposDir(env.cache.value)).Err? ==>
      o == Outcome(Err(CreateDirFailed(ReposDir(env.cache.value))), fs)
    // A missing entry is cloned from the spec's URL: git's outcome decides,
    // and the repos directory stays made either way.
    ensures ParseSpec(spec).Some? && env.cache.Some? ==>
      var owner := ParseSpec(spec).value.0;
      var repo := ParseSpec(spec).value.1;
      var made := CreateDirAll(fs, ReposDir(env.cache.value));
      var git := env.git(RepoUrl(owner, repo));
      made.Ok? && Entry(env.cache.value, owner, repo) !in fs ==>
        && (git == NotRunnable ==> o == Outcome(Err(GitNotRunnable), made.value))
        && (git == Fails ==> o == Outcome(Err(CloneFailed(spec)), made.value))
        && (git.Clones? ==> o.result == Ok(Entry(env.cache.value, owner, repo)))
  {
    match ParseSpec(spec)
    case None => Outcome(Err(InvalidSpec(spec)), fs)
    case Some((owner, repo)) =>
      match env.cache
      case None => Outcome(Err(NoCacheDir), fs)
      case Some(cache) =>
        match CreateDirAll(fs, ReposDir(cache))
        case Err(e) => Outcome(Err(e), fs)
        case Ok(fs1) =>
          ReposDirAddsNoEntry(fs, cache, CacheKey(owner, repo));
          Fetch(fs1, Entry(cache, owner, repo), env.git(RepoUrl(owner, repo)), spec)
  }

  /** Reusing a present entry never consults git. */
  lemma ReuseIgnoresGit(fs: FS, env: Env, spec: string, git: string -> CloneResult)
    requires ParseSpec(spec).Some? && env.cache.Some?
    requires Entry(env.cache.value, ParseSpec(spec).value.0, ParseSpec(spec).value.1) in fs
    ensures ResolvePackage(fs, env, spec) == ResolvePackage(fs, env.(git := git), spec)
  {
  }

  /** A fresh clone puts the checked-out tree at the entry, exactly. */
  lemma CloneInstallsTree(fs: FS, cache: Path, owner: string, repo: string, tree: map<Path, Node>)
    requires Valid(fs) && Entry(cache, owner, repo) !in fs
    requires CreateDirAll(fs, ReposDir(cache)).Ok?
    ensures var entry := Entry(cache, owner, repo);
      Subtree(Fetch(CreateDirAll(fs, ReposDir(cache)).value, entry, Clones(tree), owner + "/" + repo).fs, entry)
        == tree[[] := Dir]
  {
    var entry := Entry(cache, owner, repo);
    var fs1 := CreateDirAll(fs, ReposDir(cache)).value;
    DescendantImpliesExists(fs, entry);
    ReposDirAddsNoEntry(fs, cache, CacheKey(owner, repo));
    forall p | p in fs1 ensures !Under(p, entry) {
      if p !in fs {
        assert p in Ancestry(ReposDir(cache));
      }
    }
    GraftedSubtree(fs1, tree[[] := Dir], entry);
  }

  // ---------------------------------------------------------------------------
  // find_skills_dir
  // ---------------------------------------------------------------------------

  function CursorDir(root: Path): Path {
    root + [".cursor", "skills"]
  }

  function PlainDir(root: Path): Path {
    root + ["skills"]
  }

  /** `find_skills_dir(root)`: `.cursor/skills` first, then `skills`; the first
      candidate that exists decides, and an empty one is an error. */
  function FindSkillsDir(fs: FS, root: Path): (r: Result<Path>)
    // Whatever is returned is a candidate that lists at least one skill.
    ensures r.Ok? ==> ((r.value == CursorDir(root) || r.value == PlainDir(root))
      && Discover(fs, r.value).Ok? && Discover(fs, r.value).value != [])
    // An existing `.cursor/skills` decides alone; `skills` is not consulted.
    ensures CursorDir(root) in fs ==>
      && (Discover(fs, CursorDir(root)).Err? ==> r == Err(Discover(fs, CursorDir(root)).error))
      && (Discover(fs, CursorDir(root)) == Ok([]) ==> r == Err(EmptyCandidate(".cursor/skills")))
      && (Discover(fs, CursorDir(root)).Ok? && Discover(fs, CursorDir(root)).value != [] ==> r == Ok(CursorDir(root)))
    ensures CursorDir(root) !in fs && PlainDir(root) in fs ==>
      && (Discover(fs, PlainDir(root)).Err? ==> r == Err(Discover(fs, PlainDir(root)).error))
      && (Discover(fs, PlainDir(root)) == Ok([]) ==> r == Err(EmptyCandidate("skills")))
      && (Discover(fs, PlainDir(root)).Ok? && Discover(fs, PlainDir(root)).value != [] ==> r == Ok(PlainDir(root)))
    ensures CursorDir(root) !in fs && PlainDir(root) !in fs ==> r == Err(NoSkillsDir)
  {
    if CursorDir(root) in fs then Probe(fs, CursorDir(root), ".cursor/skills")
    else if PlainDir(root) in fs then Probe(fs, PlainDir(root), "skills")
    else Err(NoSkillsDir)
  }

  /** One existing candidate: it must list at least one skill. */
  function Probe(fs: FS, dir: Path, name: string): (r: Result<Path>)
    ensures r.Ok? <==> Discover(fs, dir).Ok? && Discover(fs, dir).value != []
    ensures r.Ok? ==> r.value == dir
    ensures Discover(fs, dir).Err? ==> r == Err(Discover(fs, dir).error)
    ensures Discover(fs, dir) == Ok([]) ==> r == Err(EmptyCandidate(name))
  {
    match Discover(fs, dir)
    case Err(e) => Err(e)
    case Ok(skills) => if skills == [] then Err(EmptyCandidate(name)) else Ok(dir)
  }

  // ---------------------------------------------------------------------------
  // install_package
  // ---------------------------------------------------------------------------

  /** The skills the filter keeps: the one named, which must be in the
      package, or all of them. */
  function SelectSkills(all: seq<string>, filter: Option<string>): (r: Result<seq<string>>)
    ensures filter.None? ==> r == Ok(all)
    ensures filter.Some? && filter.value in all ==> r == Ok([filter.value])
    ensures filter.Some? && filter.value !in all ==> r == Err(SkillNotInPackage(filter.value, all))
  {
    match filter
    case None => Ok(all)
    case Some(f) => if f in all then Ok([f]) else Err(SkillNotInPackage(f, all))
  }

  /** A resolved package: its skills directory and the skills to install. */
  datatype Package = Package(dir: Path, skills: seq<string>)

  /** Everything between resolving and the first copy: probe, discover,
      filter. The filesystem is only read. */
  function Choose(fs: FS, repo: Path, filter: Option<string>): (r: Result<Package>)
    // The chosen skills are skills of the package, in sorted order: all of
    // them without a filter, exactly the filter with one.
    ensures r.Ok? ==>
      var pkg := r.value;
      && Discover(fs, pkg.dir).Ok? && pkg.skills != []
      && StrictlySorted(pkg.skills)
      && (forall k :: k in pkg.skills ==> k in Discover(fs, pkg.dir).value)
      && (filter.None? ==> pkg.skills == Discover(fs, pkg.dir).value)
      && (filter.Some? ==> pkg.skills == [filter.value])
    // A filter naming no skill of the package fails.
    ensures (FindSkillsDir(fs, repo).Ok? && filter.Some? &&
      filter.value !in Discover(fs, FindSkillsDir(fs, repo).value).value) ==>
      r == Err(SkillNotInPackage(filter.value, Discover(fs, FindSkillsDir(fs, repo).value).value))
    ensures FindSkillsDir(fs, repo).Err? ==> r == Err(FindSkillsDir(fs, repo).error)
    // The package is the directory the probe found, and a found directory
    // with no filter, or with a filter it lists, always yields one.
    ensures r.Ok? ==> FindSkillsDir(fs, repo) == Ok(r.value.dir)
    ensures (FindSkillsDir(fs, repo).Ok? && (filter.None? ||
      filter.value in Discover(fs, FindSkillsDir(fs, repo).value).value)) ==> r.Ok?
  {
    match FindSkillsDir(fs, repo)
    case Err(e) => Err(e)
    case Ok(dir) =>
      match Discover(fs, dir)
      case Err(e) => Err(e)
      case Ok(all) =>
        if all == [] then Err(NoSkillsInPackage)
        else
          match SelectSkills(all, filter)
          case Err(e) => Err(e)
          case Ok(chosen) => Ok(Package(dir, chosen))
  }

  /** The `No skills found in package` check after probing can never fire:
      the probe already rejected an empty directory. */
  lemma NoSkillsInPackageUnreachable(fs: FS, repo: Path, filter: Option<string>)
    ensures Choose(fs, repo, filter) != Err(NoSkillsInPackage)
  {
    if FindSkillsDir(fs, repo).Ok? {
      var dir := FindSkillsDir(fs, repo).value;
      assert Discover(fs, dir).value != [];
    }
  }

  /** Everything before the first copy: resolve, then choose. */
  function Prepare(fs: FS, env: Env, spec: string, filter: Option<string>): (o: Outcome<Package>)
    ensures ParseSpec(spec).None? ==> o == Outcome(Err(InvalidSpec(spec)), fs)
    ensures o.fs == ResolvePackage(fs, env, spec).fs
    ensures o.result.Ok? ==> (ResolvePackage(fs, env, spec).result.Ok?
      && o.result == Choose(o.fs, ResolvePackage(fs, env, spec).result.value, filter))
    // A resolution failure is the outcome; a resolved package is chosen from.
    ensures ResolvePackage(fs, env, spec).result.Err? ==> o.result == Err(ResolvePackage(fs, env, spec).result.error)
    ensures ResolvePackage(fs, env, spec).result.Ok? ==>
      o.result == Choose(o.fs, ResolvePackage(fs, env, spec).result.value, filter)
  {
    var rp := ResolvePackage(fs, env, spec);
    match rp.result
    case Err(e) => Outcome(Err(e), rp.fs)
    case Ok(repo) => Outcome(Choose(rp.fs, repo, filter), rp.fs)
  }

  /** A resolved repository with a skills directory, and no filter or one
      the directory lists, is always prepared: all its skills in sorted order,
      or exactly the filtered one. */
  lemma PrepareSucceeds(fs: FS, env: Env, spec: string, filter: Option<string>)
    requires ResolvePackage(fs, env, spec).result.Ok?
    requires var fs1 := ResolvePackage(fs, env, spec).fs;
      var found := FindSkillsDir(fs1, ResolvePackage(fs, env, spec).result.value);
      found.Ok? && (filter.None? || filter.value in Discover(fs1, found.value).value)
    ensures var fs1 := ResolvePackage(fs, env, spec).fs;
      var dir := FindSkillsDir(fs1, ResolvePackage(fs, env, spec).result.value).value;
      Prepare(fs, env, spec, filter).result ==
        Ok(Package(dir, if filter.None? then Discover(fs1, dir).value else [filter.value]))
  {
  }

  const UserStore: string := "user store"

  /** The user store as a target. */
  function StoreTarget(home: Path): Target {
    Target(UserStore, home + [".ai", "skills"])
  }

  /** The user-store decision: like the arbiter under `PerSkill`, except that
      only `y`/`yes` copies; `a`/`all` skips like any other answer. */
  function StoreDecide(s: Session, p: Pair, present: bool, o: Outcome<()>): (r: Run)
    ensures r.policy == PerSkill
    ensures !present || Classify(NextLine(s.input)) != AllOfThem ==> r == Decide(s, PerSkill, p, present, o)
    ensures present && Classify(NextLine(s.input)) == AllOfThem ==>
      && r.result.Ok? && r.session.fs == s.fs && r.session.input == Rest(s.input)
      && r.session.trace == s.trace + [Prompted(p.skill, p.target.tool), Skipped(p.skill, p.target.tool)]
  {
    if !present then Place(s, PerSkill, o, Copied(p.skill, p.target.tool))
    else Ask(s, p, if Classify(NextLine(s.input)) == Yes then Yes else Other, o)
  }

  function StoreStep(s: Session, src: Path, p: Pair): Run {
    StoreDecide(s, p, Dest(p) in s.fs, CopySkill(s.fs, Source(src, p), Dest(p)))
  }

  /** The user-store decision accounts for its pair like an arbiter step. */
  lemma StoreDecideEffect(s: Session, p: Pair, present: bool, o: Outcome<()>)
    ensures Accounted(s, PerSkill, StoreDecide(s, p, present, o), [(p.skill, p.target.tool)])
  {
    if present && Classify(NextLine(s.input)) == AllOfThem {
      var q, e := Prompted(p.skill, p.target.tool), Skipped(p.skill, p.target.tool);
      assert [q, e][..1] == [q];
      AfterPrompt(s, StoreDecide(s, p, present, o), q, e);
    } else {
      DecideEffect(s, PerSkill, p, present, o);
    }
  }

  /** The user-store loop: each skill in order against the store. */
  function StoreLoop(s: Session, src: Path, skills: seq<string>, store: Target): (r: Run)
    ensures Accounted(s, PerSkill, r, Keys(Pairs(skills, [store])))
    decreases |skills|
  {
    if skills == [] then
      assert Added(s, Run(Ok(()), s, PerSkill)) == [];
      Run(Ok(()), s, PerSkill)
    else
      var p := Pair(skills[0], store);
      var r1 := StoreStep(s, src, p);
      StoreDecideEffect(s, p, Dest(p) in s.fs, CopySkill(s.fs, Source(src, p), Dest(p)));
      StoreKeys(skills, store);
      if r1.result.Err? then r1
      else
        var r := StoreLoop(r1.session, src, skills[1..], store);
        Chain(s, PerSkill, r1, r1.session, PerSkill, r, [(p.skill, p.target.tool)], Keys(Pairs(skills[1..], [store])));
        r
  }

  /** Against the store alone, each skill is one pair. */
  lemma StoreKeys(skills: seq<string>, store: Target)
    requires skills != []
    ensures Keys(Pairs(skills, [store])) == [(skills[0], store.tool)] + Keys(Pairs(skills[1..], [store]))
  {
    var p := Pair(skills[0], store);
    assert Row(skills[0], [store]) == [p];
    assert Pairs(skills, [store]) == [p] + Pairs(skills[1..], [store]);
  }

  /** The target loop and the optional user-store loop for a prepared package. */
  function Deliver(s: Session, env: Env, pkg: Package, targets: seq<Target>, toUser: bool): (r: Run)
    // The target loop starts from a fresh `PerSkill` policy.
    ensures !toUser ==> r == SkillLoop(s, PerSkill, pkg.dir, pkg.skills, targets)
    ensures SkillLoop(s, PerSkill, pkg.dir, pkg.skills, targets).result.Err? ==>
      r == SkillLoop(s, PerSkill, pkg.dir, pkg.skills, targets)
    // An unset `HOME` fails only after every target copy is done.
    ensures toUser && env.home.None? ==>
      var t := SkillLoop(s, PerSkill, pkg.dir, pkg.skills, targets);
      r.session == t.session && (t.result.Ok? ==> r.result == Err(HomeUnset))
    ensures Accounted(s, PerSkill, r, Keys(Pairs(pkg.skills, targets)) +
      (if toUser && env.home.Some? then Keys(Pairs(pkg.skills, [StoreTarget(env.home.value)])) else []))
  {
    var t := SkillLoop(s, PerSkill, pkg.dir, pkg.skills, targets);
    var k1 := Keys(Pairs(pkg.skills, targets));
    var keys := k1 + (if toUser && env.home.Some? then Keys(Pairs(pkg.skills, [StoreTarget(env.home.value)])) else []);
    TargetsAccounted(s, pkg, targets);
    if t.result.Err? || !toUser then
      Owed(s, PerSkill, t, k1, keys);
      t
    else
      match env.home
      case None =>
        Abandoned(s, PerSkill, t, k1, HomeUnset, keys);
        Run(Err(HomeUnset), t.session, t.policy)
      case Some(home) => ToStore(s, t, pkg, home, k1)
  }

  /** A run accounts for any keys once it failed, and for equal keys. */
  lemma Owed(s: Session, policy: Policy, t: Run, k: seq<(string, string)>, k': seq<(string, string)>)
    requires Accounted(s, policy, t, k) && (t.result.Err? || k' == k + [])
    ensures Accounted(s, policy, t, k')
  {
    if t.result.Ok? {
      assert k' == k;
    }
  }

  /** The target loop accounts for every (skill, target) pair. */
  lemma TargetsAccounted(s: Session, pkg: Package, targets: seq<Target>)
    ensures Accounted(s, PerSkill, SkillLoop(s, PerSkill, pkg.dir, pkg.skills, targets), Keys(Pairs(pkg.skills, targets)))
  {
    SkillLoopIsPairs(s, PerSkill, pkg.dir, pkg.skills, targets);
  }

  /** Failing after a run keeps its trace and its answers: a failure owes no
      decisions. */
  lemma Abandoned(s: Session, policy: Policy, t: Run, k: seq<(string, string)>, e: Error, k': seq<(string, string)>)
    requires Accounted(s, policy, t, k)
    ensures Accounted(s, policy, Run(Err(e), t.session, t.policy), k')
  {
    assert Added(s, Run(Err(e), t.session, t.policy)) == Added(s, t);
  }

  /** After a successful target loop `t`: create the user store and run the
      store loop; a store that cannot be created fails with no further
      effect. */
  function ToStore(s: Session, t: Run, pkg: Package, home: Path, k1: seq<(string, string)>): (r: Run)
    requires Accounted(s, PerSkill, t, k1) && t.result.Ok?
    ensures Accounted(s, PerSkill, r, k1 + Keys(Pairs(pkg.skills, [StoreTarget(home)])))
  {
    var store := StoreTarget(home);
    match CreateDirAll(t.session.fs, store.dir)
    case Err(e) =>
      Abandoned(s, PerSkill, t, k1, e, k1 + Keys(Pairs(pkg.skills, [store])));
      Run(Err(e), t.session, t.policy)
    case Ok(fs2) =>
      var mid := t.session.(fs := fs2);
      var r := StoreLoop(mid, pkg.dir, pkg.skills, store);
      Chain(s, PerSkill, t, mid, PerSkill, r, k1, Keys(Pairs(pkg.skills, [store])));
      r
  }

  /** `install_package(spec, filter, targets, install_to_user)`. */
  function InstallPackage(s: Session, env: Env, spec: string, filter: Option<string>,
                          targets: seq<Target>, toUser: bool): (r: Run)
    // A malformed spec fails with no effect at all.
    ensures ParseSpec(spec).None? ==> r == Run(Err(InvalidSpec(spec)), s, PerSkill)
    // Until the package is prepared nothing is copied and nothing is asked.
    ensures Prepare(s.fs, env, spec, filter).result.Err? ==>
      r == Run(Err(Prepare(s.fs, env, spec, filter).result.error), s.(fs := Prepare(s.fs, env, spec, filter).fs), PerSkill)
    ensures Prepare(s.fs, env, spec, filter).result.Ok? ==>
      r == Deliver(s.(fs := Prepare(s.fs, env, spec, filter).fs), env, Prepare(s.fs, env, spec, filter).result.value, targets, toUser)
    // Answers are read one per prompt, and a successful install decides each
    // (skill, target) pair skill-major, then each skill for the user store.
    ensures |s.trace| <= |r.session.trace| && r.session.trace[..|s.trace|] == s.trace
    ensures r.session.input == Consume(s.input, Prompts(Added(s, r)))
    ensures r.result.Ok? ==> Prepare(s.fs, env, spec, filter).result.Ok?
    ensures r.result.Ok? && Prepare(s.fs, env, spec, filter).result.Ok? ==>
      var skills := Prepare(s.fs, env, spec, filter).result.value.skills;
      Decisions(Added(s, r)) == Keys(Pairs(skills, targets)) +
        (if toUser && env.home.Some? then Keys(Pairs(skills, [StoreTarget(env.home.value)])) else [])
  {
    var prep := Prepare(s.fs, env, spec, filter);
    var s1 := s.(fs := prep.fs);
    match prep.result
    case Err(e) =>
      var r := Run(Err(e), s1, PerSkill);
      assert Added(s, r) == [];
      r
    case Ok(pkg) => Deliver(s1, env, pkg, targets, toUser)
  }
}

=== FILE: order.dfy ===
/** The order in which skill names are listed: Rust's `Ord` on `String`, that
    is, lexicographic comparison of the characters' code points. */
module Order {

  /** `a` sorts no later than `b`. */
  predicate Below(a: string, b: string) {
    a == [] || (b != [] && (a[0] < b[0] || (a[0] == b[0] && Below(a[1..], b[1..]))))
  }

  /** `a` sorts strictly before `b`. */
  predicate Precedes(a: string, b: string) {
    Below(a, b) && a != b
  }

  predicate StrictlySorted(xs: seq<string>) {
    forall i, j :: 0 <= i < j < |xs| ==> Precedes(xs[i], xs[j])
  }

  lemma {:induction false} BelowReflexive(a: string)
    ensures Below(a, a)
  {
    if a != [] {
      BelowReflexive(a[1..]);
    }
  }

  lemma {:induction false} BelowAntisymmetric(a: string, b: string)
    requires Below(a, b) && Below(b, a)
    ensures a == b
  {
    if a != [] && b != [] {
      BelowAntisymmetric(a[1..], b[1..]);
      assert a == [a[0]] + a[1..] && b == [b[0]] + b[1..];
    }
  }

  lemma {:induction false} BelowTransitive(a: string, b: string, c: string)
    requires Below(a, b) && Below(b, c)
    ensures Below(a, c)
  {
    if a != [] && b != [] && c != [] && a[0] == b[0] == c[0] {
      BelowTransitive(a[1..], b[1..], c[1..]);
    }
  }

  lemma {:induction false} BelowTotal(a: string, b: string)
    ensures Below(a, b) || Below(b, a)
  {
    if a != [] && b != [] && a[0] == b[0] {
      BelowTotal(a[1..], b[1..]);
    }
  }

  /** `m` is the least element of `s`. */
  predicate IsLeast(m: string, s: set<string>) {
    m in s && forall x :: x in s ==> Below(m, x)
  }

  /** Every finite non-empty set of names has a least element. */
  lemma {:induction false} LeastExists(s: set<string>)
    requires s != {}
    ensures exists m :: IsLeast(m, s)
    decreases |s|
  {
    var y :| y in s;
    if s == {y} {
      BelowReflexive(y);
      assert IsLeast(y, s);
    } else {
      LeastExists(s - {y});
      var m :| IsLeast(m, s - {y});
      BelowTotal(y, m);
      if Below(y, m) {
        forall x | x in s ensures Below(y, x) {
          if x == y { BelowReflexive(y); } else { BelowTransitive(y, m, x); }
        }
        assert IsLeast(y, s);
      } else {
        assert IsLeast(m, s);
      }
    }
  }

  /** The least element is unique. */
  lemma LeastUnique(s: set<string>)
    ensures forall m, n :: IsLeast(m, s) && IsLeast(n, s) ==> m == n
  {
    forall m, n | IsLeast(m, s) && IsLeast(n, s) ensures m == n {
      BelowAntisymmetric(m, n);
    }
  }

  /** The elements of `s` in increasing order, each exactly once. */
  function Sort(s: set<string>): (r: seq<string>)
    ensures StrictlySorted(r)
    ensures forall x :: x in r <==> x in s
    ensures |r| == |s|
    decreases |s|
  {
    if s == {} then []
    else
      LeastExists(s);
      LeastUnique(s);
      var m :| IsLeast(m, s);
      var rest := Sort(s - {m});
      assert forall x :: x in rest ==> Precedes(m, x);
      [m] + rest
  }
}

=== FILE: paths.dfy ===
/** Paths, both as component sequences (the engine's view of the filesystem)
    and as text (the configuration's view). */
module Paths {
  import opened Types

  /** `p` lies at or below `root`. */
  predicate Under(p: Path, root: Path) {
    |root| <= |p| && p[..|root|] == root
  }

  function Parent(p: Path): Path
    requires p != []
  {
    p[..|p| - 1]
  }

  /** A name that the operating system reads as exactly one ordinary
      component: not empty, not `.` or `..`, and free of separators. */
  predicate IsPlain(name: string) {
    name != "" && name != "." && name != ".." && '/' !in name
  }

  // ---------------------------------------------------------------------------
  // Splitting on a separator (Rust's `str::split` with a char pattern)
  // ---------------------------------------------------------------------------

  /** The inverse of `Split`: the parts joined with `sep` between them. */
  function Glue(parts: seq<string>, sep: char): string
    requires |parts| >= 1
  {
    if |parts| == 1 then parts[0] else parts[0] + [sep] + Glue(parts[1..], sep)
  }

  /** The pieces of `s` between occurrences of `sep`, including empty ones:
      there is always one more piece than there are separators. */
  function Split(s: string, sep: char): (parts: seq<string>)
    ensures |parts| >= 1
    ensures forall i :: 0 <= i < |parts| ==> sep !in parts[i]
    ensures Glue(parts, sep) == s
    ensures |parts| == Count(s, sep) + 1
  {
    if s == [] then [""]
    else if s[0] == sep then
      var rest := Split(s[1..], sep);
      assert s == [s[0]] + s[1..];
      [""] + rest
    else
      var rest := Split(s[1..], sep);
      var head := [s[0]] + rest[0];
      assert sep !in head;
      assert s == [s[0]] + s[1..];
      assert Glue([head] + rest[1..], sep) == [s[0]] + Glue(rest, sep) by {
        if |rest| > 1 {
          assert ([head] + rest[1..])[1..] == rest[1..];
        }
      }
      [head] + rest[1..]
  }

  /** Number of occurrences of `c` in `s`. */
  function Count(s: string, c: char): nat {
    if s == [] then 0 else (if s[0] == c then 1 else 0) + Count(s[1..], c)
  }

  lemma {:induction false} CountAppend(a: string, b: string, c: char)
    ensures Count(a + b, c) == Count(a, c) + Count(b, c)
  {
    if a != [] {
      assert (a + b)[1..] == a[1..] + b;
      CountAppend(a[1..], b, c);
    } else {
      assert a + b == b;
    }
  }

  lemma CountAbsent(s: string, c: char)
    requires c !in s
    ensures Count(s, c) == 0
  {
  }

  /** Splitting the glued parts gives the parts back when no part holds the
      separator. */
  lemma {:induction false} SplitGlue(parts: seq<string>, sep: char)
    requires |parts| >= 1
    requires forall i :: 0 <= i < |parts| ==> sep !in parts[i]
    ensures Split(Glue(parts, sep), sep) == parts
  {
    if |parts| == 1 {
      SplitNoSeparator(parts[0], sep);
    } else {
      SplitGlue(parts[1..], sep);
      SplitPrefix(parts[0], Glue(parts[1..], sep), sep);
    }
  }

  lemma {:induction false} SplitNoSeparator(s: string, sep: char)
    requires sep !in s
    ensures Split(s, sep) == [s]
  {
    if s != [] {
      SplitNoSeparator(s[1..], sep);
    }
  }

  /** Splitting `a + sep + b`, where `a` has no separator, puts `a` first. */
  lemma {:induction false} SplitPrefix(a: string, b: string, sep: char)
    requires sep !in a
    ensures Split(a + [sep] + b, sep) == [a] + Split(b, sep)
  {
    if a == [] {
      assert a + [sep] + b == [sep] + b;
      assert ([sep] + b)[1..] == b;
    } else {
      var s := a + [sep] + b;
      assert s[0] == a[0] && s[1..] == a[1..] + [sep] + b;
      SplitPrefix(a[1..], b, sep);
      var rest := Split(s[1..], sep);
      assert rest[0] == a[1..] && rest[1..] == Split(b, sep);
      assert [s[0]] + rest[0] == a;
    }
  }

  // ---------------------------------------------------------------------------
  // Joining a relative or absolute path text onto a base path
  // ---------------------------------------------------------------------------

  /** Follows `comps` from `base` the way the operating system resolves a path:
      empty and `.` components stay put, `..` moves to the parent (the root is
      its own parent), any other name descends. */
  function Resolve(base: Path, comps: seq<string>): Path
    decreases |comps|
  {
    if comps == [] then base
    else
      var c := comps[0];
      var next :=
        if c == "" || c == "." then base
        else if c == ".." then (if base == [] then [] else Parent(base))
        else base + [c];
      Resolve(next, comps[1..])
  }

  /** The location `base.join(rel)` names: an absolute `rel` replaces the base. */
  function Join(base: Path, rel: string): Path {
    if |rel| > 0 && rel[0] == '/' then Resolve([], Split(rel, '/'))
    else Resolve(base, Split(rel, '/'))
  }

  /** Joining a plain name descends exactly one level. */
  lemma JoinPlain(base: Path, name: string)
    requires IsPlain(name)
    ensures Join(base, name) == base + [name]
  {
    SplitNoSeparator(name, '/');
    assert name[0] != '/' by { assert name[0] in name; }
    var comps := Split(name, '/');
    assert comps[0] == name && comps[1..] == [];
    assert Resolve(base, comps) == Resolve(base + [name], []);
  }

  /** Joining an absolute text ignores the base entirely. */
  lemma JoinAbsolute(base: Path, other: Path, rel: string)
    requires |rel| > 0 && rel[0] == '/'
    ensures Join(base, rel) == Join(other, rel)
  {
  }

  // ---------------------------------------------------------------------------
  // Path text (Rust's `PathBuf::push` on Unix)
  // ---------------------------------------------------------------------------

  predicate StartsWith(s: string, prefix: string) {
    |prefix| <= |s| && s[..|prefix|] == prefix
  }

  /** `base` with `rel` pushed onto it: an absolute `rel` replaces `base`;
      otherwise a `/` is inserted unless `base` is empty or already ends in one. */
  function JoinText(base: string, rel: string): (r: string)
    ensures StartsWith(rel, "/") ==> r == rel
    ensures !StartsWith(rel, "/") ==> exists glue :: glue in {"", "/"} && r == base + glue + rel
    ensures !StartsWith(rel, "/") && base != "" && base[|base| - 1] != '/' ==> r == base + "/" + rel
    ensures !StartsWith(rel, "/") && (base == "" || base[|base| - 1] == '/') ==> r == base + rel
  {
    if |rel| > 0 && rel[0] == '/' then rel
    else if base == [] || base[|base| - 1] == '/' then
      assert base + "" + rel == base + rel;
      base + rel
    else base + "/" + rel
  }
}

=== FILE: remove.dfy ===
/** Skill removal (`remove_skill`): collect the targets that hold the skill,
    confirm once, delete exactly those copies, then optionally the copy in
    the user store. */
module Remove {
  import opened Types
  import opened Paths
  import opened FileSystem
  import opened Arbiter

  /** A sequence of deletions: how it ended, the filesystem after it and the
      paths deleted, in order. */
  datatype Deletion = Deletion(result: Result<()>, fs: FS, removed: seq<Path>)

  /** A removal: how it ended, the filesystem and answer lines after it, the
      paths deleted in order, and whether the user was asked. */
  datatype Removal = Removal(result: Result<()>, fs: FS, input: seq<string>, removed: seq<Path>, asked: bool)

  /** What `user_scope` and `HOME` make of the user store: not involved, wanted
      but `HOME` unset, or the skill's path in it. */
  datatype Store = NotWanted | HomeMissing | At(path: Path)

  /** `r` lists entries of `paths` in the order they appear there: any two
      entries of `r` come from two positions of `paths` in the same order. */
  ghost predicate InOrderOf(r: seq<Path>, paths: seq<Path>) {
    forall i, j :: 0 <= i < j < |r| ==> Positions(paths, r[i], r[j])
  }

  /** `x` occurs in `paths` before some occurrence of `y`. */
  ghost predicate Positions(paths: seq<Path>, x: Path, y: Path) {
    exists a, b :: 0 <= a < b < |paths| && x == paths[a] && y == paths[b]
  }

  /** The candidates that exist, in order. */
  function Present(fs: FS, paths: seq<Path>): (r: seq<Path>)
    ensures |r| <= |paths|
    ensures forall p :: p in r <==> p in paths && p in fs
    // The kept candidates appear in the order of the targets they came from.
    ensures InOrderOf(r, paths)
    // Every existing candidate is kept, as often as it is listed.
    ensures (forall p :: p in paths ==> p in fs) ==> r == paths
  {
    if paths == [] then []
    else
      var rest := Present(fs, paths[1..]);
      var r := (if paths[0] in fs then [paths[0]] else []) + rest;
      PresentInOrder(paths, paths[1..], rest, r);
      r
  }

  /** The order clause of `Present` for one more candidate in front, from the
      clause for the rest. */
  lemma PresentInOrder(paths: seq<Path>, tail: seq<Path>, rest: seq<Path>, r: seq<Path>)
    requires paths != [] && tail == paths[1..]
    requires r == rest || r == [paths[0]] + rest
    requires forall p :: p in rest ==> p in tail
    requires InOrderOf(rest, tail)
    ensures InOrderOf(r, paths)
  {
    forall i, j | 0 <= i < j < |r| ensures Positions(paths, r[i], r[j]) {
      if r == rest {
        assert Positions(tail, rest[i], rest[j]);
        var a, b :| 0 <= a < b < |tail| && rest[i] == tail[a] && rest[j] == tail[b];
        assert r[i] == paths[a + 1] && r[j] == paths[b + 1];
      } else if i == 0 {
        assert r[j] == rest[j - 1] && rest[j - 1] in tail;
        var b :| 0 <= b < |tail| && tail[b] == rest[j - 1];
        assert r[i] == paths[0] && r[j] == paths[b + 1];
      } else {
        assert r[i] == rest[i - 1] && r[j] == rest[j - 1];
        assert Positions(tail, rest[i - 1], rest[j - 1]);
        var a, b :| 0 <= a < b < |tail| && rest[i - 1] == tail[a] && rest[j - 1] == tail[b];
        assert r[i] == paths[a + 1] && r[j] == paths[b + 1];
      }
    }
  }

  /** Everything below some path of `roots`. */
  predicate BelowSome(q: Path, roots: seq<Path>) {
    exists i :: 0 <= i < |roots| && Under(q, roots[i])
  }

  /** `remove_dir_all` on each path in order; the first failure aborts. */
  function DeleteAll(fs: FS, paths: seq<Path>): (d: Deletion)
    // The deleted paths are a prefix of the list, all of it on success.
    ensures |d.removed| <= |paths| && d.removed == paths[..|d.removed|]
    ensures d.result.Ok? ==> d.removed == paths
    ensures d.result.Err? ==> (|d.removed| < |paths|
      && d.result.error in {NotFound(paths[|d.removed|]), NotADirectory(paths[|d.removed|])})
    // Only deletions: what is left is unchanged, what is gone lay below a
    // deleted path, and nothing below a deleted path is left.
    ensures forall q :: q in d.fs ==> q in fs && d.fs[q] == fs[q]
    ensures forall q :: q in fs && q !in d.fs ==> BelowSome(q, d.removed)
    ensures forall q :: q in d.fs ==> !BelowSome(q, d.removed)
    decreases |paths|
  {
    if paths == [] then Deletion(Ok(()), fs, [])
    else
      match RemoveDirAll(fs, paths[0])
      case Err(e) => Deletion(Err(e), fs, [])
      case Ok(fs1) =>
        var rest := DeleteAll(fs1, paths[1..]);
        var d := Deletion(rest.result, rest.fs, [paths[0]] + rest.removed);
        DeleteCons(fs, paths, rest, d);
        d
  }

  /** The contract of `DeleteAll` for a first path that could be removed, from
      the contract of the rest. */
  lemma DeleteCons(fs: FS, paths: seq<Path>, rest: Deletion, d: Deletion)
    requires paths != [] && RemoveDirAll(fs, paths[0]).Ok?
    requires d == Deletion(rest.result, rest.fs, [paths[0]] + rest.removed)
    requires var fs1 := RemoveDirAll(fs, paths[0]).value; var tail := paths[1..];
      && |rest.removed| <= |tail| && rest.removed == tail[..|rest.removed|]
      && (rest.result.Ok? ==> rest.removed == tail)
      && (rest.result.Err? ==> (|rest.removed| < |tail|
          && rest.result.error in {NotFound(tail[|rest.removed|]), NotADirectory(tail[|rest.removed|])}))
      && (forall q :: q in rest.fs ==> q in fs1 && rest.fs[q] == fs1[q])
      && (forall q :: q in fs1 && q !in rest.fs ==> BelowSome(q, rest.removed))
      && (forall q :: q in rest.fs ==> !BelowSome(q, rest.removed))
    ensures |d.removed| <= |paths| && d.removed == paths[..|d.removed|]
    ensures d.result.Ok? ==> d.removed == paths
    ensures d.result.Err? ==> (|d.removed| < |paths|
      && d.result.error in {NotFound(paths[|d.removed|]), NotADirectory(paths[|d.removed|])})
    ensures forall q :: q in d.fs ==> q in fs && d.fs[q] == fs[q]
    ensures forall q :: q in fs && q !in d.fs ==> BelowSome(q, d.removed)
    ensures forall q :: q in d.fs ==> !BelowSome(q, d.removed)
  {
    var fs1 := RemoveDirAll(fs, paths[0]).value;
    assert paths == [paths[0]] + paths[1..];
    forall q | q in fs && q !in d.fs ensures BelowSome(q, d.removed) {
      if q in fs1 {
        var i :| 0 <= i < |rest.removed| && Under(q, rest.removed[i]);
        assert d.removed[i + 1] == rest.removed[i];
      } else {
        assert d.removed[0] == paths[0];
      }
    }
    forall q | q in d.fs ensures !BelowSome(q, d.removed) {
      forall i | 0 <= i < |d.removed| ensures !Under(q, d.removed[i]) {
        if i > 0 {
          assert d.removed[i] == rest.removed[i - 1];
        }
      }
    }
  }

  /** The deletions after confirmation: the collected paths, then the
      skill's path in the user store if that is wanted and present. */
  function Erase(fs: FS, found: seq<Path>, store: Store): (d: Deletion)
    ensures d.removed <= found || (store.At? && d.removed == found + [store.path])
    ensures d.result.Ok? ==> found <= d.removed
    ensures store == HomeMissing && DeleteAll(fs, found).result.Ok? ==>
      d.result == Err(HomeUnset) && d.removed == found
    // A failed target deletion is the outcome, before the store is looked at.
    ensures DeleteAll(fs, found).result.Err? ==> d.result == DeleteAll(fs, found).result && d.removed <= found
    // With the store not involved, the target deletions are all.
    ensures store.NotWanted? && DeleteAll(fs, found).result.Ok? ==> d.result.Ok? && d.removed == found
    // The store's copy is deleted when it is there after the targets' copies,
    // skipped when it is not, and a file in its place fails.
    ensures store.At? && DeleteAll(fs, found).result.Ok? && IsDir(DeleteAll(fs, found).fs, store.path) ==>
      d.result.Ok? && d.removed == found + [store.path]
    ensures store.At? && DeleteAll(fs, found).result.Ok? && store.path !in DeleteAll(fs, found).fs ==>
      d.result.Ok? && d.removed == found
    ensures (store.At? && DeleteAll(fs, found).result.Ok? && store.path in DeleteAll(fs, found).fs
             && DeleteAll(fs, found).fs[store.path].File?) ==>
      d.result == Err(NotADirectory(store.path)) && d.removed == found
    // On success neither a collected path nor the store's copy is left.
    ensures d.result.Ok? ==> (forall p :: p in found ==> p !in d.fs) && (store.At? ==> store.path !in d.fs)
    ensures forall q :: q in d.fs ==> q in fs && d.fs[q] == fs[q]
    ensures forall q :: q in fs && q !in d.fs ==> BelowSome(q, found) || (store.At? && Under(q, store.path))
    ensures forall q :: q in d.fs ==> !BelowSome(q, d.removed)
  {
    var d := DeleteAll(fs, found);
    if d.result.Err? then d
    else
      match store
      case NotWanted => d
      case HomeMissing => d.(result := Err(HomeUnset))
      case At(p) =>
        if p !in d.fs then d
        else
          match RemoveDirAll(d.fs, p)
          case Err(e) => d.(result := Err(e))
          case Ok(fs2) =>
            var r := Deletion(Ok(()), fs2, d.removed + [p]);
            EraseStore(fs, d, p, r);
            r
  }

  lemma EraseStore(fs: FS, d: Deletion, p: Path, r: Deletion)
    requires forall q :: q in d.fs ==> q in fs && d.fs[q] == fs[q]
    requires forall q :: q in d.fs ==> !BelowSome(q, d.removed)
    requires RemoveDirAll(d.fs, p).Ok? && r == Deletion(Ok(()), RemoveDirAll(d.fs, p).value, d.removed + [p])
    ensures forall q :: q in r.fs ==> q in fs && r.fs[q] == fs[q]
    ensures forall q :: q in r.fs ==> !BelowSome(q, r.removed)
  {
    forall q | q in r.fs ensures !BelowSome(q, r.removed) {
      forall i | 0 <= i < |r.removed| ensures !Under(q, r.removed[i]) {
        if i < |d.removed| {
          assert r.removed[i] == d.removed[i];
        }
      }
    }
  }

  /** Some candidate exists and its removal is confirmed, by `yes` or by the
      answer read. */
  predicate Confirmed(fs: FS, input: seq<string>, candidates: seq<Path>, yes: bool) {
    Present(fs, candidates) != [] && (yes || Classify(NextLine(input)) == Yes)
  }

  /** The shared body of `remove_skill` once the candidate paths are known. */
  function Purge(fs: FS, input: seq<string>, candidates: seq<Path>, store: Store, yes: bool): (r: Removal)
    // Nothing to remove: success with no prompt, no change, and the user
    // store left alone.
    ensures Present(fs, candidates) == [] ==> r == Removal(Ok(()), fs, input, [], false)
    // Asked and not confirmed: nothing removed.
    ensures Present(fs, candidates) != [] && !yes && Classify(NextLine(input)) != Yes ==>
      r == Removal(Ok(()), fs, Rest(input), [], true)
    // Confirmed: the collected paths are deleted first, in order, then the
    // user store's copy; one answer was read unless `yes`.
    ensures Present(fs, candidates) != [] && (yes || Classify(NextLine(input)) == Yes) ==>
      && r.asked == !yes && r.input == (if yes then input else Rest(input))
      && (r.removed <= Present(fs, candidates)
          || (store.At? && r.removed == Present(fs, candidates) + [store.path]))
      && (r.result.Ok? ==> Present(fs, candidates) <= r.removed)
    // With the user store wanted but `HOME` unset the removal fails, after the
    // target copies are gone.
    ensures (Present(fs, candidates) != [] && (yes || Classify(NextLine(input)) == Yes) && store == HomeMissing
      && DeleteAll(fs, Present(fs, candidates)).result.Ok?) ==>
      r.result == Err(HomeUnset) && r.removed == Present(fs, candidates)
    // Confirmed, the removal's outcome is that of the deletions.
    ensures Confirmed(fs, input, candidates, yes) ==>
      var d := Erase(fs, Present(fs, candidates), store);
      r.result == d.result && r.fs == d.fs && r.removed == d.removed
    // On success every collected path and the store's copy are gone.
    ensures Confirmed(fs, input, candidates, yes) && r.result.Ok? ==>
      (forall p :: p in candidates ==> p !in r.fs) && (store.At? ==> store.path !in r.fs)
    // Only deletions, and only below a collected path or the store's path.
    ensures forall q :: q in r.fs ==> q in fs && r.fs[q] == fs[q]
    ensures forall q :: q in fs && q !in r.fs ==>
      BelowSome(q, Present(fs, candidates)) || (store.At? && Under(q, store.path))
    ensures forall q :: q in r.fs ==> !BelowSome(q, r.removed)
  {
    var found := Present(fs, candidates);
    if found == [] then Removal(Ok(()), fs, input, [], false)
    else if !yes && Classify(NextLine(input)) != Yes then Removal(Ok(()), fs, Rest(input), [], true)
    else
      var d := Erase(fs, found, store);
      Removal(d.result, d.fs, if yes then input else Rest(input), d.removed, !yes)
  }

  /** Each target's copy of the skill: `target.join(name)` for a single
      ordinary name. */
  function Copies(targets: seq<Target>, name: string): (r: seq<Path>)
    ensures |r| == |targets|
    ensures forall i :: 0 <= i < |targets| ==> r[i] == targets[i].dir + [name]
  {
    seq(|targets|, i requires 0 <= i < |targets| => targets[i].dir + [name])
  }

  /** The skill's path in the user store, if the store is involved. */
  function StoreOf(home: Option<Path>, userScope: bool, name: string): Store {
    if !userScope then NotWanted
    else match home
      case None => HomeMissing
      case Some(h) => At(h + [".ai", "skills", name])
  }

  /** No target holding the skill leaves nothing to collect. */
  lemma NoneHeld(fs: FS, targets: seq<Target>, name: string)
    ensures (forall i :: 0 <= i < |targets| ==> targets[i].dir + [name] !in fs) ==>
      Present(fs, Copies(targets, name)) == []
  {
    var found := Present(fs, Copies(targets, name));
    if found != [] {
      assert found[0] in Copies(targets, name);
    }
  }

  /** `remove_skill(name, targets, user_scope, yes)`, with the name checked to
      be one ordinary path component before it is joined onto any target. */
  function RemoveSkill(fs: FS, input: seq<string>, name: string, targets: seq<Target>,
                       home: Option<Path>, userScope: bool, yes: bool): (r: Removal)
    ensures name == "" ==> r == Removal(Err(EmptyName), fs, input, [], false)
    ensures name != "" && !IsPlain(name) ==> r == Removal(Err(InvalidName(name)), fs, input, [], false)
    // No target holds the skill: success, no prompt, no change.
    ensures IsPlain(name) && (forall i :: 0 <= i < |targets| ==> targets[i].dir + [name] !in fs) ==>
      r == Removal(Ok(()), fs, input, [], false)
    // Asked and not confirmed: nothing removed.
    ensures (IsPlain(name) && Present(fs, Copies(targets, name)) != [] && !yes
             && Classify(NextLine(input)) != Yes) ==>
      r == Removal(Ok(()), fs, Rest(input), [], true)
    // Confirmed: one answer read unless `yes`; the targets' copies go first,
    // in target order, and the first failure is the outcome.
    ensures IsPlain(name) && Confirmed(fs, input, Copies(targets, name), yes) ==>
      && r.asked == !yes && r.input == (if yes then input else Rest(input))
      && (r.removed <= Present(fs, Copies(targets, name))
          || (userScope && home.Some?
              && r.removed == Present(fs, Copies(targets, name)) + [home.value + [".ai", "skills", name]]))
    ensures (IsPlain(name) && Confirmed(fs, input, Copies(targets, name), yes)
             && DeleteAll(fs, Present(fs, Copies(targets, name))).result.Err?) ==>
      r.result == DeleteAll(fs, Present(fs, Copies(targets, name))).result
    // Then the user store: not involved without `user_scope`; an unset `HOME`
    // fails after the targets' copies are gone; otherwise the store's copy is
    // deleted when it is there.
    ensures (IsPlain(name) && Confirmed(fs, input, Copies(targets, name), yes) && !userScope
             && DeleteAll(fs, Present(fs, Copies(targets, name))).result.Ok?) ==>
      r.result.Ok? && r.removed == Present(fs, Copies(targets, name))
    ensures (IsPlain(name) && Confirmed(fs, input, Copies(targets, name), yes) && userScope && home.None?
             && DeleteAll(fs, Present(fs, Copies(targets, name))).result.Ok?) ==>
      r.result == Err(HomeUnset) && r.removed == Present(fs, Copies(targets, name))
    ensures (IsPlain(name) && Confirmed(fs, input, Copies(targets, name), yes) && userScope && home.Some?
             && DeleteAll(fs, Present(fs, Copies(targets, name))).result.Ok?
             && IsDir(DeleteAll(fs, Present(fs, Copies(targets, name))).fs, home.value + [".ai", "skills", name])) ==>
      r.result.Ok? && r.removed == Present(fs, Copies(targets, name)) + [home.value + [".ai", "skills", name]]
    // On success no target holds the skill any more, nor does the store when
    // it was involved.
    ensures IsPlain(name) && Confirmed(fs, input, Copies(targets, name), yes) && r.result.Ok? ==>
      && (forall i :: 0 <= i < |targets| ==> targets[i].dir + [name] !in r.fs)
      && (userScope && home.Some? ==> home.value + [".ai", "skills", name] !in r.fs)
    // Only deletions, and only of the skill's own directories.
    ensures forall q :: q in r.fs ==> q in fs && r.fs[q] == fs[q]
    ensures forall q :: q in fs && q !in r.fs ==>
      (exists i :: 0 <= i < |targets| && Under(q, targets[i].dir + [name]))
      || (userScope && home.Some? && Under(q, home.value + [".ai", "skills", name]))
  {
    if name == "" then Removal(Err(EmptyName), fs, input, [], false)
    else if !IsPlain(name) then Removal(Err(InvalidName(name)), fs, input, [], false)
    else
      var cs := Copies(targets, name);
      var r := Purge(fs, input, cs, StoreOf(home, userScope, name), yes);
      NoneHeld(fs, targets, name);
      GoneFromCopies(fs, r.fs, Present(fs, cs), targets, name, StoreOf(home, userScope, name));
      r
  }

  /** What a purge of the skill's copies deleted lies below one of the
      targets' copies or the store's copy. */
  lemma GoneFromCopies(fs: FS, fs': FS, found: seq<Path>, targets: seq<Target>, name: string, store: Store)
    requires forall p :: p in found ==> p in Copies(targets, name)
    requires forall q :: q in fs && q !in fs' ==> BelowSome(q, found) || (store.At? && Under(q, store.path))
    ensures forall q :: q in fs && q !in fs' ==>
      (exists i :: 0 <= i < |targets| && Under(q, targets[i].dir + [name]))
      || (store.At? && Under(q, store.path))
  {
    var cs := Copies(targets, name);
    forall q | q in fs && q !in fs' && BelowSome(q, found)
      ensures exists i :: 0 <= i < |targets| && Under(q, targets[i].dir + [name])
    {
      var j :| 0 <= j < |found| && Under(q, found[j]);
      assert found[j] in cs;
      var i :| 0 <= i < |cs| && cs[i] == found[j];
      assert Under(q, targets[i].dir + [name]);
    }
  }

  // ---------------------------------------------------------------------------
  // The name as the source joins it
  // ---------------------------------------------------------------------------

  /** `target.join(name)` for any name: an absolute name replaces the target,
      and `..` climbs out of it. */
  function JoinedCopies(targets: seq<Target>, name: string): (r: seq<Path>)
    ensures |r| == |targets|
    ensures forall i :: 0 <= i < |targets| ==> r[i] == Join(targets[i].dir, name)
  {
    seq(|targets|, i requires 0 <= i < |targets| => Join(targets[i].dir, name))
  }

  function StoreAsWritten(home: Option<Path>, userScope: bool, name: string): Store {
    if !userScope then NotWanted
    else match home
      case None => HomeMissing
      case Some(h) => At(Join(h + [".ai", "skills"], name))
  }

  /** `remove_skill` as written: only the empty name is rejected, and the name
      is joined onto each target unchecked. */
  function RemoveSkillAsWritten(fs: FS, input: seq<string>, name: string, targets: seq<Target>,
                                home: Option<Path>, userScope: bool, yes: bool): (r: Removal)
    ensures name == "" ==> r == Removal(Err(EmptyName), fs, input, [], false)
    ensures forall q :: q in r.fs ==> q in fs && r.fs[q] == fs[q]
  {
    if name == "" then Removal(Err(EmptyName), fs, input, [], false)
    else Purge(fs, input, JoinedCopies(targets, name), StoreAsWritten(home, userScope, name), yes)
  }

  /** For an ordinary name the check changes nothing: both versions agree. */
  lemma AsWrittenAgreesOnPlainNames(fs: FS, input: seq<string>, name: string, targets: seq<Target>,
                                    home: Option<Path>, userScope: bool, yes: bool)
    requires IsPlain(name)
    ensures RemoveSkillAsWritten(fs, input, name, targets, home, userScope, yes)
         == RemoveSkill(fs, input, name, targets, home, userScope, yes)
  {
    forall i | 0 <= i < |targets| ensures Join(targets[i].dir, name) == targets[i].dir + [name] {
      JoinPlain(targets[i].dir, name);
    }
    assert JoinedCopies(targets, name) == Copies(targets, name);
    if home.Some? {
      JoinPlain(home.value + [".ai", "skills"], name);
      assert home.value + [".ai", "skills"] + [name] == home.value + [".ai", "skills", name];
    }
  }

  /** The filesystem of the counterexample: a target directory `/t` and an
      unrelated directory `/srv` holding a file. */
  const EscapeFs: FS := map[[] := Dir, ["t"] := Dir, ["srv"] := Dir, ["srv", "data"] := File([])]

  /** A name with a leading `/` is joined as an absolute path: confirming the
      removal of skill `/srv` from target `/t` deletes `/srv`, which lies
      outside every target. */
  lemma AbsoluteNameEscapes()
    ensures var r := RemoveSkillAsWritten(EscapeFs, [], "/srv", [Target("Cursor", ["t"])], None, false, true);
      r.result.Ok? && ["srv"] !in r.fs && ["srv", "data"] !in r.fs
      && !Under(["srv"], ["t"])
  {
    var cs := JoinedCopies([Target("Cursor", ["t"])], "/srv");
    EscapeJoin();
    assert cs == [["srv"]];
    assert Present(EscapeFs, cs) == [["srv"]];
    assert ["srv", "data"][..1] == ["srv"];
  }

  /** Joining `/srv` onto `/t` gives `/srv`. */
  lemma EscapeJoin()
    ensures Join(["t"], "/srv") == ["srv"]
  {
    var parts := ["", "srv"];
    assert Glue(parts, '/') == "/srv";
    SplitGlue(parts, '/');
  }

  /** The checked version refuses the same request and changes nothing. */
  lemma AbsoluteNameRejected()
    ensures RemoveSkill(EscapeFs, [], "/srv", [Target("Cursor", ["t"])], None, false, true)
         == Removal(Err(InvalidName("/srv")), EscapeFs, [], [], false)
  {
    assert "/srv"[0] == '/';
  }
}

=== FILE: scaffold.dfy ===
/** Skill scaffolding (`add_skill` and its two templates): validate the
    name, apply the force rule, then write `SKILL.md` and `README.md` into a
    fresh skill directory. */
module Scaffold {
  import opened Types
  import opened Paths
  import opened FileSystem
  import opened Text
  import opened Discovery
  import opened Copier

  /** A name character: an ASCII letter or digit, `-` or `_`. */
  predicate IsNameChar(c: char) {
    ('a' <= c <= 'z') || ('A' <= c <= 'Z') || ('0' <= c <= '9') || c == '-' || c == '_'
  }

  predicate ValidName(name: string) {
    forall i :: 0 <= i < |name| ==> IsNameChar(name[i])
  }

  /** A valid non-empty name is one ordinary path component, so joining it
      onto the source directory descends exactly one level. */
  lemma ValidNameIsPlain(name: string)
    requires name != "" && ValidName(name)
    ensures IsPlain(name)
    ensures IsAscii(name)
  {
    assert name[0] != '.';
    assert forall c :: c in name ==> IsNameChar(c);
  }

  // ---------------------------------------------------------------------------
  // Templates
  // ---------------------------------------------------------------------------

  /** A `format!` string cut at its `{}` placeholders: the pieces with the
      arguments spliced in between, in order. */
  function Format(pieces: seq<string>, args: seq<string>): (r: string)
    requires |pieces| == |args| + 1
    ensures |r| >= |pieces[0]| && r[..|pieces[0]|] == pieces[0]
  {
    if args == [] then pieces[0] else pieces[0] + (args[0] + Format(pieces[1..], args[1..]))
  }

  const Opening: string := "---\nname: "

  /** The front matter after the name, up to the title's `# `. */
  const Describe: string := "\n" + "description: A brief description of what this skill does.\n---\n\n# "

  /** The manifest template, split around its two placeholders: the name and
      the heading. */
  const SkillPieces: seq<string> := [Opening, Describe, "\n" + Body]

  /** Everything below the title line. */
  const Body: string :=
    "\n"
      + "## When to use\n"
      + "\n"
      + "Apply this skill when:\n"
      + "\n"
      + "- The user asks for help with [specific task/area]\n"
      + "- You need to [perform specific action]\n"
      + "- The context involves [domain or framework]\n"
      + "\n"
      + "## Instructions\n"
      + "\n"
      + "1. First step or condition\n"
      + "2. Second step\n"
      + "3. Continue as needed\n"
      + "\n"
      + "## Paths\n"
      + "\n"
      + "| Role   | Path                          |\n"
      + "|--------|-------------------------------|\n"
      + "| Source | [relevant source path if any] |\n"
      + "| Target | [relevant target path if any]  |\n"
      + "\n"
      + "## Workflow\n"
      + "\n"
      + "### 1. Setup\n"
      + "\n"
      + "- Initial setup steps here\n"
      + "- Check for required resources\n"
      + "\n"
      + "### 2. Execution\n"
      + "\n"
      + "- Step-by-step process\n"
      + "- Handle edge cases\n"
      + "\n"
      + "### 3. Verification\n"
      + "\n"
      + "- How to verify the result\n"
      + "- Common issues and solutions\n"
      + "\n"
      + "## Edge cases\n"
      + "\n"
      + "- **Case 1:** Description and solution\n"
      + "- **Case 2:** Description and solution\n"
      + "- **Case 3:** Description and solution\n"

  /** The README template, split around the name and the phrase. */
  const ReadmePieces: seq<string> := ["# ", " Skill" + Purpose, Usage]

  const Purpose: string := "\n\nA skill for "
  const Usage: string := "\n\n## Usage\n\nRun `skillset sync` to load this skill to your configured tools.\n"

  /** The title: separators become spaces, letters upper case. */
  function Heading(name: string): (h: string)
    ensures |h| == |name|
    ensures forall i :: 0 <= i < |name| ==>
      h[i] == (if name[i] == '-' || name[i] == '_' then ' ' else UpperChar(name[i]))
  {
    Upper(Spaced(name))
  }

  /** The README's phrase: separators become spaces, letters lower case. */
  function Phrase(name: string): (p: string)
    ensures |p| == |name|
    ensures forall i :: 0 <= i < |name| ==>
      p[i] == (if name[i] == '-' || name[i] == '_' then ' ' else LowerChar(name[i]))
  {
    Lower(Spaced(name))
  }

  /** `generate_skill_template(name)`. */
  function SkillTemplate(name: string): string {
    Format(SkillPieces, [name, Heading(name)])
  }

  /** `generate_readme_template(name)`. */
  function ReadmeTemplate(name: string): string {
    Format(ReadmePieces, [name, Phrase(name)])
  }

  /** `s` up to its first line break. */
  function FirstLine(s: string): (r: string)
    ensures '\n' !in r && |r| <= |s| && r == s[..|r|]
    ensures |r| < |s| ==> s[|r|] == '\n'
  {
    if s == [] || s[0] == '\n' then [] else [s[0]] + FirstLine(s[1..])
  }

  /** The `name:` value of a front matter that opens the text, if any. */
  function FrontMatterName(t: string): (r: Option<string>)
    ensures r.Some? <==> StartsWith(t, Opening)
  {
    if StartsWith(t, Opening) then Some(FirstLine(t[|Opening|..])) else None
  }

  lemma {:induction false} FirstLineOf(line: string, rest: string)
    requires '\n' !in line && rest != [] && rest[0] == '\n'
    ensures FirstLine(line + rest) == line
  {
    if line != [] {
      assert (line + rest)[1..] == line[1..] + rest;
      FirstLineOf(line[1..], rest);
    }
  }

  /** The manifest opens with front matter that names the skill: reading the
      `name:` line back gives the name. */
  lemma FrontMatterRoundTrip(name: string)
    requires '\n' !in name
    ensures FrontMatterName(SkillTemplate(name)) == Some(name)
  {
    assert SkillPieces == [Opening, Describe, "\n" + Body];
    assert Describe[0] == '\n';
    NameLine(name, Describe, Heading(name), "\n" + Body);
  }

  /** The name line of a two-placeholder template that opens with the front
      matter and continues on a new line. */
  lemma NameLine(name: string, d: string, h: string, tail: string)
    requires '\n' !in name && d != [] && d[0] == '\n'
    ensures FrontMatterName(Format([Opening, d, tail], [name, h])) == Some(name)
  {
    FormatTwo(Opening, d, tail, name, h);
    var rest := d + (h + tail);
    DropFront(Opening, name + rest);
    FirstLineOf(name, rest);
  }

  /** A template with two placeholders is its pieces and arguments
      interleaved. */
  lemma FormatTwo(p0: string, p1: string, p2: string, a0: string, a1: string)
    ensures Format([p0, p1, p2], [a0, a1]) == p0 + (a0 + (p1 + (a1 + p2)))
  {
    assert [p0, p1, p2][1..] == [p1, p2] && [p1, p2][1..] == [p2];
    assert [a0, a1][1..] == [a1] && [a1][1..] == [];
    assert Format([p2], []) == p2;
    assert Format([p1, p2], [a1]) == p1 + (a1 + p2);
  }

  /** The README's first line is its title: `# `, the name, ` Skill`. */
  lemma ReadmeTitle(name: string)
    requires '\n' !in name
    ensures FirstLine(ReadmeTemplate(name)) == "# " + name + " Skill"
  {
    assert ReadmePieces == ["# ", " Skill" + Purpose, Usage];
    assert Purpose[0] == '\n';
    LineOfThree("# ", name, " Skill", Purpose, Phrase(name), Usage);
  }

  /** A two-placeholder template whose first line ends inside its second
      piece. */
  lemma LineOfThree(a: string, n: string, b: string, c: string, x: string, tail: string)
    requires '\n' !in a && '\n' !in n && '\n' !in b && c != [] && c[0] == '\n'
    ensures FirstLine(Format([a, b + c, tail], [n, x])) == a + n + b
  {
    FormatTwo(a, b + c, tail, n, x);
    var line := a + n + b;
    var rest := c + (x + tail);
    assert a + (n + ((b + c) + (x + tail))) == line + rest;
    assert forall ch :: ch in line ==> ch in a || ch in n || ch in b;
    FirstLineOf(line, rest);
  }

  /** `(a + b)` with `a` dropped is `b`. */
  lemma DropFront(a: string, b: string)
    ensures (a + b)[|a|..] == b
  {
  }

  /** `w` occurs in `t` starting at index `i`. */
  predicate Occurs(t: string, i: int, w: string) {
    0 <= i && i + |w| <= |t| && t[i..i + |w|] == w
  }

  /** The heading is the title line that directly follows the front matter:
      `# ` and the heading, then a line break. */
  lemma HeadingPlacement(name: string)
    ensures Occurs(SkillTemplate(name), |Opening| + |name| + |Describe| - 2, "# " + Heading(name) + "\n")
  {
    assert SkillPieces == [Opening, Describe, "\n" + Body];
    DescribeEndsTitle();
    Title(Opening, name, Describe, Heading(name), "\n" + Body);
  }

  lemma DescribeEndsTitle()
    ensures |Describe| >= 2 && Describe[|Describe| - 2..] == "# "
  {
  }

  /** Generic form of the title placement. */
  lemma Title(o: string, name: string, d: string, h: string, tail: string)
    requires |d| >= 2 && d[|d| - 2..] == "# " && tail != [] && tail[0] == '\n'
    ensures Occurs(Format([o, d, tail], [name, h]), |o| + |name| + |d| - 2, "# " + h + "\n")
  {
    FormatTwo(o, d, tail, name, h);
    var t := o + (name + (d + (h + tail)));
    DropFront(o, name + (d + (h + tail)));
    DropFront(name, d + (h + tail));
    var at := |o| + |name| + |d|;
    assert t[at - 2..] == "# " + (h + tail);
    assert ("# " + (h + tail))[..|h| + 3] == "# " + h + "\n";
  }

  lemma CaseRoundTrip(c: char)
    requires IsNameChar(c) && c != '-' && c != '_'
    ensures UpperChar(LowerChar(c)) == UpperChar(c)
  {
  }

  /** For valid names the heading is the README's phrase in upper case. */
  lemma HeadingIsPhraseUpper(name: string)
    requires ValidName(name)
    ensures Heading(name) == Upper(Phrase(name))
  {
    var h := Heading(name);
    var p := Phrase(name);
    var u := Upper(p);
    forall i | 0 <= i < |name| ensures h[i] == u[i] {
      var c := name[i];
      assert u[i] == UpperChar(p[i]);
      if c != '-' && c != '_' {
        assert p[i] == LowerChar(c);
        CaseRoundTrip(c);
      }
    }
  }

  // ---------------------------------------------------------------------------
  // add_skill
  // ---------------------------------------------------------------------------

  const Readme: string := "README.md"

  /** `add_skill(name, source_dir, user_scope, force)`. `user_scope` only
      changes the closing message, so it has no part here. */
  function AddSkill(fs: FS, sourceDir: Path, name: string, force: bool): (o: Outcome<()>)
    // Rejections happen before any filesystem effect.
    ensures name == "" ==> o == Outcome(Err(EmptyName), fs)
    ensures name != "" && !ValidName(name) ==> o == Outcome(Err(InvalidName(name)), fs)
    ensures name != "" && ValidName(name) && sourceDir + [name] in fs && !force ==>
      o == Outcome(Err(AlreadyExists(sourceDir + [name])), fs)
    // On success both files hold their templates.
    ensures o.result.Ok? ==> (name != "" && ValidName(name)
      && Written(o.fs, sourceDir + [name], Utf8(SkillTemplate(name)), Utf8(ReadmeTemplate(name))))
    // Outside the new skill directory only directories on the way to it appear.
    ensures Outside(fs, o.fs, sourceDir + [name])
  {
    if name == "" then Outcome(Err(EmptyName), fs)
    else if !ValidName(name) then Outcome(Err(InvalidName(name)), fs)
    else
      var dest := sourceDir + [name];
      if dest in fs && !force then Outcome(Err(AlreadyExists(dest)), fs)
      else Replace(fs, dest, Utf8(SkillTemplate(name)), Utf8(ReadmeTemplate(name)))
  }

  /** The skill directory `dest` and its parent exist and the two files hold
      `manifest` and `readme`. */
  predicate Written(fs: FS, dest: Path, manifest: seq<byte>, readme: seq<byte>)
    requires dest != []
  {
    && IsDir(fs, Parent(dest)) && IsDir(fs, dest)
    && dest + [Manifest] in fs && fs[dest + [Manifest]] == File(manifest)
    && dest + [Readme] in fs && fs[dest + [Readme]] == File(readme)
  }

  /** Outside `dest`, `fs'` keeps every entry of `fs` and adds only
      directories on the way to `dest`. */
  predicate Outside(fs: FS, fs': FS, dest: Path)
    requires dest != []
  {
    && (forall p :: p in fs && !Under(p, dest) ==> p in fs' && fs'[p] == fs[p])
    && (forall p :: p in fs' && p !in fs && !Under(p, dest) ==> p in Ancestry(Parent(dest)) && fs'[p] == Dir)
  }

  lemma OutsideChain(fs: FS, fs2: FS, fs3: FS, dest: Path)
    requires dest != [] && Outside(fs, fs2, dest) && Outside(fs2, fs3, dest)
    ensures Outside(fs, fs3, dest)
  {
  }

  /** The force rule, then the directory and both files. */
  function Replace(fs: FS, dest: Path, manifest: seq<byte>, readme: seq<byte>): (o: Outcome<()>)
    requires dest != []
    ensures o.result.Ok? ==> Written(o.fs, dest, manifest, readme)
    ensures Outside(fs, o.fs, dest)
    ensures o.result.Ok? ==> forall p :: p in o.fs && Under(p, dest) ==>
      (p in fs && dest !in fs) || p == dest || p == dest + [Manifest] || p == dest + [Readme]
  {
    match Clear(fs, dest)
    case Err(e) => Outcome(Err(e), fs)
    case Ok(fs1) =>
      assert Outside(fs, fs1, dest);
      var o := Fill(fs1, dest, manifest, readme);
      OutsideChain(fs, fs1, o.fs, dest);
      o
  }

  /** Create the skill directory and write both files. */
  function Fill(fs: FS, dest: Path, manifest: seq<byte>, readme: seq<byte>): (o: Outcome<()>)
    requires dest != []
    ensures o.result.Ok? ==> Written(o.fs, dest, manifest, readme)
    ensures Outside(fs, o.fs, dest)
    ensures o.result.Ok? ==> forall p :: p in o.fs && Under(p, dest) ==>
      p in fs || p == dest || p == dest + [Manifest] || p == dest + [Readme]
  {
    match CreateDirAll(fs, dest)
    case Err(e) => Outcome(Err(e), fs)
    case Ok(fs2) =>
      FillCreated(fs, dest);
      var o := WriteBoth(fs2, dest, manifest, readme);
      OutsideChain(fs, fs2, o.fs, dest);
      o
  }

  /** Write both files into an existing skill directory. */
  function WriteBoth(fs: FS, dest: Path, manifest: seq<byte>, readme: seq<byte>): (o: Outcome<()>)
    requires dest != [] && IsDir(fs, Parent(dest)) && IsDir(fs, dest)
    ensures o.result.Ok? ==> Written(o.fs, dest, manifest, readme)
    ensures Outside(fs, o.fs, dest)
    ensures forall p :: p in o.fs ==> p in fs || p == dest + [Manifest] || p == dest + [Readme]
  {
    assert Under(dest + [Manifest], dest) && Under(dest + [Readme], dest);
    match WriteFile(fs, dest + [Manifest], manifest)
    case Err(e) => Outcome(Err(e), fs)
    case Ok(fs3) =>
      match WriteFile(fs3, dest + [Readme], readme)
      case Err(e) => Outcome(Err(e), fs3)
      case Ok(fs4) => Outcome(Ok(()), fs4)
  }

  /** What creating the skill directory adds. */
  lemma FillCreated(fs: FS, dest: Path)
    requires dest != [] && CreateDirAll(fs, dest).Ok?
    ensures var fs2 := CreateDirAll(fs, dest).value;
      && IsDir(fs2, Parent(dest)) && IsDir(fs2, dest)
      && Outside(fs, fs2, dest)
      && (forall p :: p in fs2 && p !in fs && Under(p, dest) ==> p == dest)
  {
    assert dest[..|dest|] == dest;
    assert dest[..|dest| - 1] == Parent(dest);
  }

  /** Scaffolding succeeds on a tree whenever the name is valid, the skill
      directory is new or is a directory replaced under `force`, and no file
      stands on the way to the source directory. */
  lemma AddSkillSucceeds(fs: FS, sourceDir: Path, name: string, force: bool)
    requires Valid(fs) && name != "" && ValidName(name)
    requires sourceDir + [name] !in fs || (force && IsDir(fs, sourceDir + [name]))
    requires !BlockedByFile(fs, sourceDir)
    ensures AddSkill(fs, sourceDir, name, force).result.Ok?
  {
    var dest := sourceDir + [name];
    assert Parent(dest) == sourceDir;
    DescendantImpliesExists(fs, dest);
    var fs1 := Clear(fs, dest).value;
    assert forall q :: q in fs1 ==> !Under(q, dest);
    ClearedUnblocked(fs, fs1, dest);
    FillSucceeds(fs1, dest, Utf8(SkillTemplate(name)), Utf8(ReadmeTemplate(name)));
  }

  /** After clearing `dest`, only the way to its parent can block it. */
  lemma ClearedUnblocked(fs: FS, fs1: FS, dest: Path)
    requires dest != [] && !BlockedByFile(fs, Parent(dest))
    requires forall q :: q in fs1 ==> q in fs && fs1[q] == fs[q] && !Under(q, dest)
    ensures !BlockedByFile(fs1, dest)
  {
    AncestryNotUnder(dest);
    assert Under(dest, dest);
    forall q | q in Ancestry(dest) && q in fs1 ensures !fs1[q].File? {
      assert q != dest;
      assert q == Parent(dest)[..|q|];
      assert q in Ancestry(Parent(dest));
    }
  }

  /** Creating an empty skill directory and writing both files succeeds. */
  lemma FillSucceeds(fs: FS, dest: Path, manifest: seq<byte>, readme: seq<byte>)
    requires dest != [] && !BlockedByFile(fs, dest)
    requires forall q :: q in fs ==> !Under(q, dest)
    ensures Fill(fs, dest, manifest, readme).result.Ok?
  {
    FillCreated(fs, dest);
    var fs2 := CreateDirAll(fs, dest).value;
    assert Under(dest + [Manifest], dest) && Under(dest + [Readme], dest);
    WriteBothSucceeds(fs2, dest, manifest, readme);
  }

  /** Both files can be written into a directory that holds neither. */
  lemma WriteBothSucceeds(fs: FS, dest: Path, manifest: seq<byte>, readme: seq<byte>)
    requires dest != [] && IsDir(fs, Parent(dest)) && IsDir(fs, dest)
    requires dest + [Manifest] !in fs && dest + [Readme] !in fs
    ensures WriteBoth(fs, dest, manifest, readme).result.Ok?
  {
    var m := dest + [Manifest];
    assert Parent(m) == dest && Parent(dest + [Readme]) == dest;
    assert dest + [Readme] != m by {
      assert (dest + [Readme])[|dest|] != m[|dest|];
    }
  }

  /** On a tree, a successful scaffold leaves the skill directory holding
      exactly the two files, even when `force` replaced an older one. */
  lemma AddSkillWritesExactlyTwoFiles(fs: FS, sourceDir: Path, name: string, force: bool)
    requires Valid(fs)
    requires AddSkill(fs, sourceDir, name, force).result.Ok?
    ensures var o := AddSkill(fs, sourceDir, name, force); var dest := sourceDir + [name];
      forall p :: p in o.fs && Under(p, dest) <==> p == dest || p == dest + [Manifest] || p == dest + [Readme]
  {
    var dest := sourceDir + [name];
    var o := AddSkill(fs, sourceDir, name, force);
    ExactlyTwo(fs, dest, Utf8(SkillTemplate(name)), Utf8(ReadmeTemplate(name)));
  }

  /** Replacing on a tree leaves exactly the directory and the two files
      below `dest`. */
  lemma ExactlyTwo(fs: FS, dest: Path, manifest: seq<byte>, readme: seq<byte>)
    requires Valid(fs) && dest != []
    requires Replace(fs, dest, manifest, readme).result.Ok?
    ensures var o := Replace(fs, dest, manifest, readme);
      forall p :: p in o.fs && Under(p, dest) <==> p == dest || p == dest + [Manifest] || p == dest + [Readme]
  {
    var o := Replace(fs, dest, manifest, readme);
    var fs1 := Clear(fs, dest).value;
    DescendantImpliesExists(fs, dest);
    assert forall p :: p in fs1 ==> !Under(p, dest);
    assert Under(dest, dest) && Under(dest + [Manifest], dest) && Under(dest + [Readme], dest);
  }

  /** After a successful scaffold the new skill is discovered in the source
      directory. */
  lemma AddedSkillIsDiscovered(fs: FS, sourceDir: Path, name: string, force: bool)
    requires AddSkill(fs, sourceDir, name, force).result.Ok?
    ensures var o := AddSkill(fs, sourceDir, name, force);
      Discover(o.fs, sourceDir).Ok? && name in Discover(o.fs, sourceDir).value
  {
    var o := AddSkill(fs, sourceDir, name, force);
    var dest := sourceDir + [name];
    assert Parent(dest) == sourceDir;
    assert IsSkill(o.fs, sourceDir, name);
  }
}

=== FILE: source_path.dfy ===
/** Choosing the skills source directory (`resolve_source`): the user-level
    store under `HOME`, or the configured source below the working directory. */
module SourcePath {
  import opened Types
  import opened Paths

  /** The user-level store, relative to `HOME`. */
  const UserStore: string := ".ai/skills"

  /** `resolve_source(user_scope, cwd, config_source)` with `HOME` given as
      `home`. It never fails: without a home the workspace source is used. */
  function ResolveSource(userScope: bool, cwd: string, configSource: string, home: Option<string>): (r: string)
    // User scope with a known home: the store under it, whatever the workspace.
    ensures userScope && home.Some? && home.value != "" && home.value[|home.value| - 1] != '/' ==>
      r == home.value + "/" + UserStore
    ensures userScope && home.Some? && (home.value == "" || home.value[|home.value| - 1] == '/') ==>
      r == home.value + UserStore
    // Otherwise the configured source pushed onto the working directory.
    ensures (!userScope || home.None?) && StartsWith(configSource, "/") ==> r == configSource
    ensures ((!userScope || home.None?) && !StartsWith(configSource, "/") && cwd != ""
             && cwd[|cwd| - 1] != '/') ==> r == cwd + "/" + configSource
    // A working directory that already ends in a separator (such as `/`)
    // takes the source as it is.
    ensures ((!userScope || home.None?) && !StartsWith(configSource, "/")
             && (cwd == "" || cwd[|cwd| - 1] == '/')) ==> r == cwd + configSource
  {
    if userScope && home.Some? then JoinText(home.value, UserStore)
    else JoinText(cwd, configSource)
  }

  /** Under user scope with a known home the working directory and the
      configured source play no part. */
  lemma UserScopeIgnoresWorkspace(h: string, cwd: string, cwd': string, s: string, s': string)
    ensures ResolveSource(true, cwd, s, Some(h)) == ResolveSource(true, cwd', s', Some(h))
  {
  }

  /** Without a home, user scope falls back to the workspace source. */
  lemma UnsetHomeFallsBack(cwd: string, s: string)
    ensures ResolveSource(true, cwd, s, None) == ResolveSource(false, cwd, s, None)
  {
  }

  /** Workspace resolution does not look at the home directory. */
  lemma WorkspaceIgnoresHome(cwd: string, s: string, home: Option<string>, home': Option<string>)
    ensures ResolveSource(false, cwd, s, home) == ResolveSource(false, cwd, s, home')
  {
  }

  lemma ResolveSourceExamples()
    ensures ResolveSource(true, "/workspace", ".ai/skills", Some("/tmp/test_home")) == "/tmp/test_home/.ai/skills"
    ensures ResolveSource(false, "/workspace", ".ai/skills", None) == "/workspace/.ai/skills"
    ensures ResolveSource(false, "/", ".skillset/skills", None) == "/.skillset/skills"
  {
    assert ".ai/skills"[..1][0] == '.';
  }
}

=== FILE: sync.dfy ===
/** The sync engine (`sync_skills`): discover the skills of a source, make
    sure every target base directory exists, then walk the skills in sorted
    order and, for each, the targets in caller order through the arbiter. */
module Sync {
  import opened Types
  import opened Paths
  import opened FileSystem
  import opened Discovery
  import opened Copier
  import opened Arbiter

  /** Directories only ever added: nothing that existed changes, and every
      new path is a directory on the way to one of `dirs`. */
  predicate OnlyAddsDirsTowards(fs: FS, fs': FS, dirs: seq<Path>) {
    && (forall q :: q in fs ==> q in fs' && fs'[q] == fs[q])
    && (forall q :: q in fs' && q !in fs ==> fs'[q] == Dir && exists i :: 0 <= i < |dirs| && q in Ancestry(dirs[i]))
  }

  function Dirs(targets: seq<Target>): (r: seq<Path>)
    ensures |r| == |targets| && forall i :: 0 <= i < |targets| ==> r[i] == targets[i].dir
  {
    if targets == [] then [] else [targets[0].dir] + Dirs(targets[1..])
  }

  /** Creating directories never unblocks nor blocks a path. */
  lemma CreateKeepsBlocked(fs: FS, p: Path, q: Path)
    requires CreateDirAll(fs, p).Ok?
    ensures BlockedByFile(CreateDirAll(fs, p).value, q) == BlockedByFile(fs, q)
  {
    var r := CreateDirAll(fs, p).value;
    if BlockedByFile(r, q) {
      var a :| a in Ancestry(q) && a in r && r[a].File?;
      assert a in fs;
    }
  }

  /** Two rounds of adding directories add directories towards either list. */
  lemma AddsChain(fs: FS, fs1: FS, fs2: FS, d: seq<Path>, ds: seq<Path>)
    requires OnlyAddsDirsTowards(fs, fs1, d) && OnlyAddsDirsTowards(fs1, fs2, ds)
    ensures OnlyAddsDirsTowards(fs, fs2, d + ds)
  {
    forall q | q in fs2 && q !in fs
      ensures fs2[q] == Dir && exists i :: 0 <= i < |d + ds| && q in Ancestry((d + ds)[i])
    {
      if q in fs1 {
        var i :| 0 <= i < |d| && q in Ancestry(d[i]);
        assert (d + ds)[i] == d[i];
      } else {
        var i :| 0 <= i < |ds| && q in Ancestry(ds[i]);
        assert (d + ds)[|d| + i] == ds[i];
      }
    }
  }

  /** What the first `create_dir_all` of the loop contributes. */
  lemma {:induction false} EnsureFirst(fs: FS, targets: seq<Target>)
    requires targets != [] && CreateDirAll(fs, targets[0].dir).Ok?
    ensures var fs1 := CreateDirAll(fs, targets[0].dir).value;
      && IsDir(fs1, targets[0].dir)
      && OnlyAddsDirsTowards(fs, fs1, [targets[0].dir])
      && forall i :: 0 <= i < |targets| ==> BlockedByFile(fs1, targets[i].dir) == BlockedByFile(fs, targets[i].dir)
  {
    var d := targets[0].dir;
    var fs1 := CreateDirAll(fs, d).value;
    assert d[..|d|] == d;
    forall i | 0 <= i < |targets| ensures BlockedByFile(fs1, targets[i].dir) == BlockedByFile(fs, targets[i].dir) {
      CreateKeepsBlocked(fs, d, targets[i].dir);
    }
    forall q | q in fs1 && q !in fs
      ensures fs1[q] == Dir && exists i :: 0 <= i < |[d]| && q in Ancestry([d][i])
    {
      assert [d][0] == d;
    }
  }

  /** `create_dir_all` for each target in caller order; the first failure
      aborts, keeping the directories made so far. */
  function EnsureDirs(fs: FS, targets: seq<Target>): (o: Outcome<()>)
    ensures o.result.Ok? <==> forall i :: 0 <= i < |targets| ==> !BlockedByFile(fs, targets[i].dir)
    ensures o.result.Err? ==> exists i :: 0 <= i < |targets| && o.result.error == CreateDirFailed(targets[i].dir)
    ensures o.result.Ok? ==> forall i :: 0 <= i < |targets| ==> IsDir(o.fs, targets[i].dir)
    ensures OnlyAddsDirsTowards(fs, o.fs, Dirs(targets))
    decreases |targets|
  {
    if targets == [] then Outcome(Ok(()), fs)
    else
      match CreateDirAll(fs, targets[0].dir)
      case Err(e) =>
        assert BlockedByFile(fs, targets[0].dir);
        Outcome(Err(e), fs)
      case Ok(fs1) =>
        var o := EnsureDirs(fs1, targets[1..]);
        EnsureCons(fs, fs1, targets, o);
        o
  }

  /** The loop's contract for a first target that could be created, from the
      contract of the rest of the loop. */
  lemma EnsureCons(fs: FS, fs1: FS, targets: seq<Target>, o: Outcome<()>)
    requires targets != [] && CreateDirAll(fs, targets[0].dir) == Ok(fs1)
    requires var rest := targets[1..];
      && (o.result.Ok? <==> forall i :: 0 <= i < |rest| ==> !BlockedByFile(fs1, rest[i].dir))
      && (o.result.Err? ==> exists i :: 0 <= i < |rest| && o.result.error == CreateDirFailed(rest[i].dir))
      && (o.result.Ok? ==> forall i :: 0 <= i < |rest| ==> IsDir(o.fs, rest[i].dir))
      && OnlyAddsDirsTowards(fs1, o.fs, Dirs(rest))
    ensures o.result.Ok? <==> forall i :: 0 <= i < |targets| ==> !BlockedByFile(fs, targets[i].dir)
    ensures o.result.Err? ==> exists i :: 0 <= i < |targets| && o.result.error == CreateDirFailed(targets[i].dir)
    ensures o.result.Ok? ==> forall i :: 0 <= i < |targets| ==> IsDir(o.fs, targets[i].dir)
    ensures OnlyAddsDirsTowards(fs, o.fs, Dirs(targets))
  {
    var rest := targets[1..];
    EnsureFirst(fs, targets);
    AddsChain(fs, fs1, o.fs, [targets[0].dir], Dirs(rest));
    assert Dirs(targets) == [targets[0].dir] + Dirs(rest);
    ConsUnblocked(fs, fs1, targets, rest, o.result.Ok?);
    if o.result.Ok? {
      ConsDirs(fs1, o.fs, targets, rest, Dirs(rest));
    } else {
      ConsFailed(targets, rest, o.result.error);
    }
  }

  /** The first target is free and creating it changed no other target's
      blocking, so all are free exactly when the rest are. */
  lemma ConsUnblocked(fs: FS, fs1: FS, targets: seq<Target>, rest: seq<Target>, ok: bool)
    requires targets != [] && rest == targets[1..] && !BlockedByFile(fs, targets[0].dir)
    requires forall i :: 0 <= i < |targets| ==> BlockedByFile(fs1, targets[i].dir) == BlockedByFile(fs, targets[i].dir)
    requires ok <==> forall i :: 0 <= i < |rest| ==> !BlockedByFile(fs1, rest[i].dir)
    ensures ok <==> forall i :: 0 <= i < |targets| ==> !BlockedByFile(fs, targets[i].dir)
  {
    assert forall i :: 0 <= i < |rest| ==> rest[i] == targets[i + 1];
    if !ok {
      var i :| 0 <= i < |rest| && BlockedByFile(fs1, rest[i].dir);
      assert BlockedByFile(fs, targets[i + 1].dir);
    }
  }

  /** The first target's directory survives the rest of the loop. */
  lemma ConsDirs(fs1: FS, fs': FS, targets: seq<Target>, rest: seq<Target>, ds: seq<Path>)
    requires targets != [] && rest == targets[1..] && IsDir(fs1, targets[0].dir)
    requires forall i :: 0 <= i < |rest| ==> IsDir(fs', rest[i].dir)
    requires OnlyAddsDirsTowards(fs1, fs', ds)
    ensures forall i :: 0 <= i < |targets| ==> IsDir(fs', targets[i].dir)
  {
    forall i | 0 <= i < |targets| ensures IsDir(fs', targets[i].dir) {
      if i > 0 {
        assert targets[i] == rest[i - 1];
      }
    }
  }

  /** A failure of the rest of the loop names one of the targets. */
  lemma ConsFailed(targets: seq<Target>, rest: seq<Target>, e: Error)
    requires targets != [] && rest == targets[1..]
    requires exists i :: 0 <= i < |rest| && e == CreateDirFailed(rest[i].dir)
    ensures exists i :: 0 <= i < |targets| && e == CreateDirFailed(targets[i].dir)
  {
    var i :| 0 <= i < |rest| && e == CreateDirFailed(rest[i].dir);
    assert rest[i] == targets[i + 1];
  }

  /** The loop failed at target `k`: it is the first blocked target, the
      error names it, and the directory of every earlier target exists. */
  predicate StoppedAt(fs: FS, o: Outcome<()>, targets: seq<Target>, k: nat) {
    && k < |targets| && BlockedByFile(fs, targets[k].dir)
    && (forall i :: 0 <= i < k ==> !BlockedByFile(fs, targets[i].dir))
    && o.result == Err(CreateDirFailed(targets[k].dir))
    && (forall i :: 0 <= i < k ==> IsDir(o.fs, targets[i].dir))
  }

  /** A failing loop stops at the first blocked target, in caller order, and
      keeps the directories of the targets before it. */
  lemma {:induction false} EnsureDirsStopsAtFirst(fs: FS, targets: seq<Target>)
    ensures EnsureDirs(fs, targets).result.Err? ==> exists k :: StoppedAt(fs, EnsureDirs(fs, targets), targets, k)
    decreases |targets|
  {
    var o := EnsureDirs(fs, targets);
    if targets != [] && o.result.Err? {
      match CreateDirAll(fs, targets[0].dir)
      case Err(_) =>
        assert StoppedAt(fs, o, targets, 0);
      case Ok(fs1) =>
        var rest := targets[1..];
        EnsureDirsStopsAtFirst(fs1, rest);
        assert o == EnsureDirs(fs1, rest);
        var k :| StoppedAt(fs1, o, rest, k);
        EnsureFirst(fs, targets);
        LaterStop(fs, fs1, o, targets, k);
    }
  }

  /** A stop at `k` in the rest of the loop is a stop at `k + 1` in the whole. */
  lemma LaterStop(fs: FS, fs1: FS, o: Outcome<()>, targets: seq<Target>, k: nat)
    requires targets != [] && CreateDirAll(fs, targets[0].dir) == Ok(fs1)
    requires StoppedAt(fs1, o, targets[1..], k)
    requires IsDir(fs1, targets[0].dir)
    requires forall i :: 0 <= i < |targets| ==> BlockedByFile(fs1, targets[i].dir) == BlockedByFile(fs, targets[i].dir)
    requires forall q :: q in fs1 ==> q in o.fs && o.fs[q] == fs1[q]
    ensures StoppedAt(fs, o, targets, k + 1)
  {
    var rest := targets[1..];
    assert targets[k + 1] == rest[k];
    forall i | 0 <= i < k + 1 ensures !BlockedByFile(fs, targets[i].dir) && IsDir(o.fs, targets[i].dir) {
      if i > 0 {
        assert targets[i] == rest[i - 1];
      }
    }
  }

  /** One skill against the targets in caller order (the inner loop). */
  function TargetLoop(s: Session, policy: Policy, src: Path, skill: string, targets: seq<Target>): Run
    decreases |targets|
  {
    if targets == [] then Run(Ok(()), s, policy)
    else
      var r := Step(s, policy, src, Pair(skill, targets[0]));
      if r.result.Err? then r else TargetLoop(r.session, r.policy, src, skill, targets[1..])
  }

  /** The skills in order, each against every target (the outer loop). */
  function SkillLoop(s: Session, policy: Policy, src: Path, skills: seq<string>, targets: seq<Target>): Run
    decreases |skills|
  {
    if skills == [] then Run(Ok(()), s, policy)
    else
      var r := TargetLoop(s, policy, src, skills[0], targets);
      if r.result.Err? then r else SkillLoop(r.session, r.policy, src, skills[1..], targets)
  }

  /** One skill paired with each target, in caller order. */
  function Row(skill: string, targets: seq<Target>): (ps: seq<Pair>)
    ensures |ps| == |targets|
    ensures forall j :: 0 <= j < |targets| ==> ps[j] == Pair(skill, targets[j])
  {
    if targets == [] then [] else [Pair(skill, targets[0])] + Row(skill, targets[1..])
  }

  /** Every (skill, target) pair, skill-major. */
  function Pairs(skills: seq<string>, targets: seq<Target>): seq<Pair> {
    if skills == [] then [] else Row(skills[0], targets) + Pairs(skills[1..], targets)
  }

  lemma {:induction false} PairsLength(skills: seq<string>, targets: seq<Target>)
    ensures |Pairs(skills, targets)| == |skills| * |targets|
    decreases |skills|
  {
    if skills != [] {
      PairsLength(skills[1..], targets);
      MulStep(|skills|, |targets|);
    }
  }

  lemma MulStep(i: nat, n: nat)
    requires i > 0
    ensures i * n == n + (i - 1) * n
  {
  }

  /** The pair at skill index `i` and target index `j` sits at position
      `i * |targets| + j`: skills outer, targets inner. */
  lemma {:induction false} PairsOrder(skills: seq<string>, targets: seq<Target>, i: nat, j: nat)
    requires i < |skills| && j < |targets|
    ensures i * |targets| + j < |Pairs(skills, targets)|
    ensures Pairs(skills, targets)[i * |targets| + j] == Pair(skills[i], targets[j])
    decreases i
  {
    if i == 0 {
      FirstRow(skills, targets, j);
    } else {
      PairsOrder(skills[1..], targets, i - 1, j);
      LaterRow(skills, targets, i, j);
    }
  }

  lemma FirstRow(skills: seq<string>, targets: seq<Target>, j: nat)
    requires 0 < |skills| && j < |targets|
    ensures 0 * |targets| + j < |Pairs(skills, targets)|
    ensures Pairs(skills, targets)[0 * |targets| + j] == Pair(skills[0], targets[j])
  {
    PairsCons(skills, targets);
    InRow(Row(skills[0], targets), Pairs(skills[1..], targets), |targets|, j, Pair(skills[0], targets[j]));
  }

  /** The step of the induction: a later skill's pairs come after the first row. */
  lemma LaterRow(skills: seq<string>, targets: seq<Target>, i: nat, j: nat)
    requires 0 < i < |skills| && j < |targets|
    requires (i - 1) * |targets| + j < |Pairs(skills[1..], targets)|
    requires Pairs(skills[1..], targets)[(i - 1) * |targets| + j] == Pair(skills[1..][i - 1], targets[j])
    ensures i * |targets| + j < |Pairs(skills, targets)|
    ensures Pairs(skills, targets)[i * |targets| + j] == Pair(skills[i], targets[j])
  {
    PairsCons(skills, targets);
    AfterRow(Row(skills[0], targets), Pairs(skills[1..], targets), |targets|, i, j, Pair(skills[i], targets[j]));
  }

  lemma PairsCons(skills: seq<string>, targets: seq<Target>)
    requires skills != []
    ensures Pairs(skills, targets) == Row(skills[0], targets) + Pairs(skills[1..], targets)
  {
  }

  /** The first row comes first. */
  lemma InRow(row: seq<Pair>, rest: seq<Pair>, n: nat, j: nat, x: Pair)
    requires |row| == n && j < n && row[j] == x
    ensures 0 * n + j < |row + rest| && (row + rest)[0 * n + j] == x
  {
  }

  /** Skipping one row of `n` pairs moves a position on by `n`. */
  lemma AfterRow(row: seq<Pair>, rest: seq<Pair>, n: nat, i: nat, j: nat, x: Pair)
    requires |row| == n && i > 0 && (i - 1) * n + j < |rest| && rest[(i - 1) * n + j] == x
    ensures i * n + j < |row + rest| && (row + rest)[i * n + j] == x
  {
    var k := (i - 1) * n + j;
    MulStep(i, n);
    assert (row + rest)[n + k] == rest[k];
  }

  /** Running two lists of pairs back to back is running their concatenation. */
  lemma {:induction false} RunPairsAppend(s: Session, policy: Policy, src: Path, a: seq<Pair>, b: seq<Pair>)
    ensures RunPairs(s, policy, src, a + b) ==
      (var r := RunPairs(s, policy, src, a);
       if r.result.Err? then r else RunPairs(r.session, r.policy, src, b))
    decreases |a|
  {
    if a == [] {
      assert a + b == b;
    } else {
      assert (a + b)[0] == a[0] && (a + b)[1..] == a[1..] + b;
      var r1 := Step(s, policy, src, a[0]);
      if r1.result.Ok? {
        RunPairsAppend(r1.session, r1.policy, src, a[1..], b);
      }
    }
  }

  /** The inner loop is the flat loop over its row. */
  lemma {:induction false} TargetLoopIsRow(s: Session, policy: Policy, src: Path, skill: string, targets: seq<Target>)
    ensures TargetLoop(s, policy, src, skill, targets) == RunPairs(s, policy, src, Row(skill, targets))
    decreases |targets|
  {
    if targets != [] {
      var r1 := Step(s, policy, src, Pair(skill, targets[0]));
      if r1.result.Ok? {
        TargetLoopIsRow(r1.session, r1.policy, src, skill, targets[1..]);
      }
    }
  }

  /** The nested loops are the flat loop over all pairs, skill-major. */
  lemma {:induction false} SkillLoopIsPairs(s: Session, policy: Policy, src: Path, skills: seq<string>, targets: seq<Target>)
    ensures SkillLoop(s, policy, src, skills, targets) == RunPairs(s, policy, src, Pairs(skills, targets))
    decreases |skills|
  {
    if skills != [] {
      TargetLoopIsRow(s, policy, src, skills[0], targets);
      RunPairsAppend(s, policy, src, Row(skills[0], targets), Pairs(skills[1..], targets));
      var r1 := TargetLoop(s, policy, src, skills[0], targets);
      if r1.result.Ok? {
        SkillLoopIsPairs(r1.session, r1.policy, src, skills[1..], targets);
      }
    }
  }

  /** `sync_skills(source, targets, policy)`. */
  function SyncSkills(s: Session, policy: Policy, source: Path, targets: seq<Target>): (r: Run)
    // Discovery failures propagate before anything else happens.
    ensures Discover(s.fs, source).Err? ==> r == Run(Err(Discover(s.fs, source).error), s, policy)
    // No skills: success, with no directory created, nothing copied and no
    // answer read.
    ensures Discover(s.fs, source) == Ok([]) ==> r == Run(Ok(()), s, policy)
    // A target base directory that cannot be created aborts before any copy
    // or prompt.
    ensures Discover(s.fs, source).Ok? && Discover(s.fs, source).value != [] && EnsureDirs(s.fs, targets).result.Err? ==>
      && r.result == EnsureDirs(s.fs, targets).result && r.session.input == s.input && r.session.trace == s.trace
      // The directories made before the failure stay.
      && r.session.fs == EnsureDirs(s.fs, targets).fs
    // Otherwise every target base directory exists before the first copy and
    // the pairs are visited skill-major over the sorted skills.
    ensures Discover(s.fs, source).Ok? && Discover(s.fs, source).value != [] && EnsureDirs(s.fs, targets).result.Ok? ==>
      && (forall i :: 0 <= i < |targets| ==> IsDir(EnsureDirs(s.fs, targets).fs, targets[i].dir))
      && r == RunPairs(s.(fs := EnsureDirs(s.fs, targets).fs), policy, source, Pairs(Discover(s.fs, source).value, targets))
  {
    match Discover(s.fs, source)
    case Err(e) => Run(Err(e), s, policy)
    case Ok(skills) =>
      if skills == [] then Run(Ok(()), s, policy)
      else
        var made := EnsureDirs(s.fs, targets);
        if made.result.Err? then Run(made.result, s.(fs := made.fs), policy)
        else
          SkillLoopIsPairs(s.(fs := made.fs), policy, source, skills, targets);
          SkillLoop(s.(fs := made.fs), policy, source, skills, targets)
  }

  /** A sync whose target directories cannot all be made stops at the first
      blocked target, before any copy or prompt, with the directories of the
      earlier targets made. */
  lemma SyncStopsAtFirstBlocked(s: Session, policy: Policy, source: Path, targets: seq<Target>)
    requires Discover(s.fs, source).Ok? && Discover(s.fs, source).value != []
    requires EnsureDirs(s.fs, targets).result.Err?
    ensures var r := SyncSkills(s, policy, source, targets);
      && r.session.input == s.input && r.session.trace == s.trace
      && exists k :: StoppedAt(s.fs, Outcome(r.result, r.session.fs), targets, k)
  {
    var r := SyncSkills(s, policy, source, targets);
    EnsureDirsStopsAtFirst(s.fs, targets);
    assert Outcome(r.result, r.session.fs) == EnsureDirs(s.fs, targets);
  }

  /** A run that ended before any pair: nothing added to the trace, no
      answer read. */
  lemma Idle(s: Session, policy: Policy, r: Run)
    requires r.session.trace == s.trace && r.session.input == s.input && r.policy == policy
    ensures |s.trace| <= |r.session.trace| && r.session.trace[..|s.trace|] == s.trace
    ensures Added(s, r) == [] && Prompts(Added(s, r)) == 0 && Decisions(Added(s, r)) == []
    ensures r.session.input == Consume(s.input, Prompts(Added(s, r)))
  {
  }

  /** A run from a session that differs only in its filesystem accounts for
      the same trace and answers. */
  lemma Resumed(s: Session, s1: Session, policy: Policy, r: Run, keys: seq<(string, string)>)
    requires s1.trace == s.trace && s1.input == s.input
    requires |s1.trace| <= |r.session.trace| && r.session.trace[..|s1.trace|] == s1.trace
    requires r.session.input == Consume(s1.input, Prompts(Added(s1, r)))
    requires policy == All ==> r.policy == All && r.session.input == s1.input
    requires r.result.Ok? ==> Decisions(Added(s1, r)) == keys
    ensures |s.trace| <= |r.session.trace| && r.session.trace[..|s.trace|] == s.trace
    ensures r.session.input == Consume(s.input, Prompts(Added(s, r)))
    ensures policy == All ==> r.policy == All && r.session.input == s.input
    ensures r.result.Ok? ==> Decisions(Added(s, r)) == keys
  {
    assert Added(s, r) == Added(s1, r);
  }

  /** In every case answers are read one per prompt, the policy never goes
      back from `All`, and success decides every (skill, target) pair once,
      skill-major over the sorted skills. */
  lemma SyncAccounted(s: Session, policy: Policy, source: Path, targets: seq<Target>)
    ensures var r := SyncSkills(s, policy, source, targets);
      && |s.trace| <= |r.session.trace| && r.session.trace[..|s.trace|] == s.trace
      && r.session.input == Consume(s.input, Prompts(Added(s, r)))
      && (policy == All ==> r.policy == All && r.session.input == s.input)
      && (r.result.Ok? && Discover(s.fs, source).Ok? ==>
            Decisions(Added(s, r)) == Keys(Pairs(Discover(s.fs, source).value, targets)))
  {
    var r := SyncSkills(s, policy, source, targets);
    match Discover(s.fs, source)
    case Err(_) => Idle(s, policy, r);
    case Ok(skills) =>
      if skills == [] || EnsureDirs(s.fs, targets).result.Err? {
        Idle(s, policy, r);
      } else {
        var s1 := s.(fs := EnsureDirs(s.fs, targets).fs);
        assert r == RunPairs(s1, policy, source, Pairs(skills, targets));
        Resumed(s, s1, policy, r, Keys(Pairs(skills, targets)));
      }
  }
}

=== FILE: text.dfy ===
/** Character-level string helpers: Rust's `trim`, ASCII case mapping and the
    separator replacement used by the templates. */
module Text {

  /** Rust's `char::is_whitespace`: the Unicode White_Space property. */
  predicate IsWhitespace(c: char) {
    ('\t' <= c <= '\r') || c == ' ' || c == '\U{0085}' || c == '\U{00A0}' || c == '\U{1680}'
    || ('\U{2000}' <= c <= '\U{200A}') || c == '\U{2028}' || c == '\U{2029}'
    || c == '\U{202F}' || c == '\U{205F}' || c == '\U{3000}'
  }

  /** `s` without its leading whitespace. */
  function TrimStart(s: string): (r: string)
    ensures |r| <= |s| && r == s[|s| - |r|..]
    ensures forall i :: 0 <= i < |s| - |r| ==> IsWhitespace(s[i])
    ensures r == [] || !IsWhitespace(r[0])
  {
    if s != [] && IsWhitespace(s[0]) then TrimStart(s[1..]) else s
  }

  /** `s` without its trailing whitespace. */
  function TrimEnd(s: string): (r: string)
    ensures |r| <= |s| && r == s[..|r|]
    ensures forall i :: |r| <= i < |s| ==> IsWhitespace(s[i])
    ensures r == [] || !IsWhitespace(r[|r| - 1])
  {
    if s != [] && IsWhitespace(s[|s| - 1]) then TrimEnd(s[..|s| - 1]) else s
  }

  /** Everything of `s` outside `s[i..j]` is whitespace. */
  predicate OnlySpaceOutside(s: string, i: int, j: int) {
    && 0 <= i <= j <= |s|
    && (forall k :: 0 <= k < i ==> IsWhitespace(s[k]))
    && (forall k :: j <= k < |s| ==> IsWhitespace(s[k]))
  }

  /** Rust's `str::trim`: the longest infix of `s` that starts and ends with
      a non-whitespace character, everything outside it being whitespace. */
  function Trim(s: string): (r: string)
    ensures exists i, j :: OnlySpaceOutside(s, i, j) && r == s[i..j]
    ensures r == [] || (!IsWhitespace(r[0]) && !IsWhitespace(r[|r| - 1]))
  {
    var t := TrimStart(s);
    var r := TrimEnd(t);
    TrimBounds(s, t, r);
    r
  }

  lemma TrimBounds(s: string, t: string, r: string)
    requires |t| <= |s| && t == s[|s| - |t|..]
    requires forall k :: 0 <= k < |s| - |t| ==> IsWhitespace(s[k])
    requires |r| <= |t| && r == t[..|r|]
    requires forall k :: |r| <= k < |t| ==> IsWhitespace(t[k])
    ensures OnlySpaceOutside(s, |s| - |t|, |s| - |t| + |r|)
    ensures r == s[|s| - |t|..|s| - |t| + |r|]
  {
    var i := |s| - |t|;
    var j := i + |r|;
    SliceOfSlice(s, i, |r|);
    forall k | j <= k < |s| ensures IsWhitespace(s[k]) {
      assert s[k] == t[k - i];
    }
  }

  lemma SliceOfSlice(s: string, i: nat, n: nat)
    requires i + n <= |s|
    ensures s[i..][..n] == s[i..i + n]
  {
  }

  function LowerChar(c: char): char {
    if 'A' <= c <= 'Z' then (c as int + 32) as char else c
  }

  function UpperChar(c: char): char {
    if 'a' <= c <= 'z' then (c as int - 32) as char else c
  }

  /** ASCII lower-casing, character by character. */
  function Lower(s: string): (r: string)
    ensures |r| == |s|
    ensures forall i :: 0 <= i < |s| ==> r[i] == LowerChar(s[i])
  {
    if s == [] then [] else [LowerChar(s[0])] + Lower(s[1..])
  }

  /** ASCII upper-casing, character by character. */
  function Upper(s: string): (r: string)
    ensures |r| == |s|
    ensures forall i :: 0 <= i < |s| ==> r[i] == UpperChar(s[i])
  {
    if s == [] then [] else [UpperChar(s[0])] + Upper(s[1..])
  }

  /** `s.replace("-", " ").replace("_", " ")`: both separators become spaces. */
  function Spaced(s: string): (r: string)
    ensures |r| == |s|
    ensures forall i :: 0 <= i < |s| ==>
      r[i] == (if s[i] == '-' || s[i] == '_' then ' ' else s[i])
  {
    if s == [] then []
    else [if s[0] == '-' || s[0] == '_' then ' ' else s[0]] + Spaced(s[1..])
  }
}

=== FILE: types.dfy ===
/** Shared value types of the skills manager: optional values, results and the
    errors the engine reports. Paths are sequences of name components. */
module Types {

  /** A path as the sequence of its name components below the filesystem root. */
  type Path = seq<string>

  datatype Option<+T> = None | Some(value: T)

  /** The error kinds the engine can report; each carries the context the
      source's message names. */
  datatype Error =
    | ReadDirFailed(path: Path)            // listing a path that is not a directory
    | SourceMissing(path: Path)            // copy source does not exist
    | NotFound(path: Path)                 // removing a path that does not exist
    | NotADirectory(path: Path)            // removing a directory tree rooted at a file
    | CreateDirFailed(path: Path)          // creating a directory below or over a file
    | WriteFailed(path: Path)              // writing a file with no directory to hold it
    | CopyFailed(path: Path)               // copy source vanished before it was copied
    | InvalidSpec(spec: string)            // package spec is not owner/repo
    | NoCacheDir                           // platform cache directory unknown
    | GitNotRunnable                       // the clone command could not be started
    | CloneFailed(spec: string)            // the clone command exited unsuccessfully
    | EmptyCandidate(dir: string)          // candidate skills directory holds no skill
    | NoSkillsDir                          // no candidate skills directory exists
    | NoSkillsInPackage
    | SkillNotInPackage(name: string, available: seq<string>)
    | HomeUnset
    | EmptyName
    | InvalidName(name: string)
    | AlreadyExists(path: Path)

  datatype Result<+T> = Ok(value: T) | Err(error: Error)
}
